=== FILE: README.md ===
# Transport-layer engines of ComputerNetworks_TransportLayer, in Dafny

This project models the protocol logic of the two transport engines in the
repository and proves properties about them:

- **Lab5-part2/congestion_control.py.** Three parts are modelled:
  - The `Packet` codec, with tags `D`, `A` and `S`.
  - The congestion-controlled `Sender`, which has:
    - a 5000-slot circular send buffer indexed by `seq % 5000`, guarded by a counting semaphore;
    - a congestion window `cwnd`;
    - a single retransmission timer;
    - cumulative ACK processing.
  - The cumulative-ACK `Receiver`, which has a 1000-slot reorder window.
- **Lab5-part1/fc/swp.py.** Three parts are modelled:
  - The `SWPPacket` codec, with tags `D` and `A` only.
  - The `SWPSender`, which hands out sequence numbers and keeps a dictionary of outstanding numbers.
  - The go-back-N `SWPReceiver`.

Every engine is a set of pure step functions over immutable records:

- `Wire` models the shared `'!BI'` header: one tag byte and a big-endian unsigned 32-bit number.
- `Codec` and `SwpCodec` model the two packet formats.
- `Segmentation` models the 1400-byte chunking that both `send` methods do.
- `CcSender` and `CcReceiver` model the congestion-controlled engine.
- `SwpSender` and `SwpReceiver` model the fixed-window engine.

The modelling choices:

- The send-buffer semaphore is an integer count of free permits.
- The retransmission timer is a flag saying whether one is scheduled.
- `datetime.now()` is a `now` argument.
- The `send_time` slot field is a marker with three values:
  - `Unsent` stands for `None`;
  - `SentAt(t)` stands for a timestamp;
  - `Retransmitted` stands for `0`.
- `cwnd` is a Dafny `real`.
- `int(cwnd)` is read as the floor, and `cwnd // 2` as the floor of the half.
- An exception that ends a thread is a `Crash` outcome that carries the state the exception left behind (and, for the receiver, the payloads it had already handed over).
- Where the code as written dies or misbehaves, a corrected member models the evident intent, and the run-level properties are proved about the corrected engine. `OnAckAgrees` shows the corrected sender differs from the original only where the original dies.

## Model

| member | source | states |
|---|---|---|
| Wire.FromToBigEndian32 | Lab5-part2/congestion_control.py:36-39 | Reading back the four big-endian bytes of a 32-bit number gives the number. |
| Wire.ToFromBigEndian32 | Lab5-part2/congestion_control.py:42-46 | Any four bytes are the big-endian encoding of the number they denote. |
| Wire.Header | Lab5-part2/congestion_control.py:36-39 | The packed header is five bytes: the tag, then the number's big-endian bytes. |
| Wire.ParseHeader | Lab5-part2/congestion_control.py:42-46 | Unpacking fails exactly when fewer than five bytes are given. Otherwise it yields the tag and a 32-bit number whose packing is the first five bytes. |
| Codec.TypeOfTag | Lab5-part2/congestion_control.py:9-12 | Only 0x44, 0x41 and 0x53 name a packet type, and each names the type whose tag it is. |
| Codec.Encode | Lab5-part2/congestion_control.py:36-39 | Encoding succeeds exactly for numbers in 0..2^32-1. The result is 5 + len(data) bytes: the tag at byte 0, the number big-endian in bytes 1-4, then the payload. |
| Codec.Decode | Lab5-part2/congestion_control.py:41-48 | Decoding fails on fewer than 5 bytes and on an unknown tag. Otherwise it succeeds, and every byte after offset 5 is the payload. |
| Codec.DecodeEncode | Lab5-part2/congestion_control.py:36-48 | Decoding an encoded packet gives back its type, number and payload. |
| Codec.EncodeDecode | Lab5-part2/congestion_control.py:36-48 | Every byte string that decodes re-encodes to itself. |
| SwpCodec.TypeOfTag | Lab5-part1/fc/swp.py:8-10 | Only 0x44 and 0x41 name a packet type. |
| SwpCodec.Encode | Lab5-part1/fc/swp.py:34-37 | Succeeds exactly for 32-bit numbers; yields 5 + len(data) bytes with the tag, the big-endian number and the payload. |
| SwpCodec.Decode | Lab5-part1/fc/swp.py:39-46 | Fails on fewer than 5 bytes or a tag other than `D`/`A`. Otherwise the payload is everything after offset 5. |
| SwpCodec.DecodeEncode | Lab5-part1/fc/swp.py:34-46 | Round trip for both types and every 32-bit number. |
| SwpCodec.EncodeDecode | Lab5-part1/fc/swp.py:34-46 | Every byte string that decodes re-encodes to itself. |
| SwpCodec.SynRejected | Lab5-part1/fc/swp.py:8-10 | A SYN that the other codec encodes and decodes fails here as an unknown type. |
| SwpCodec.SameBytesAsCc | Lab5-part1/fc/swp.py:34-46 | For `D` and `A`, this format and the congestion-controlled one encode a packet to the same bytes. Any byte string this decoder accepts, the other decodes to the same packet. |
| Segmentation.ChunksFlatten | Lab5-part2/congestion_control.py:115-118 | The chunks that `send` cuts, concatenated, are the data. |
| Segmentation.ChunksCount | Lab5-part2/congestion_control.py:115-118 | There are ceil(len(data) / 1400) chunks. |
| Segmentation.ChunksAreSlices | Lab5-part2/congestion_control.py:117-118 | Chunk j is the slice `data[1400*j : 1400*j + 1400]`. |
| Segmentation.ChunksBounded | Lab5-part1/fc/swp.py:68-70 | Every chunk is non-empty and at most 1400 bytes. |
| Segmentation.FlattenSplit | Lab5-part1/fc/swp.py:68-70 | Splitting the chunk list at any point splits the concatenated data at the same point. |
| CcSender.Transmit | Lab5-part2/congestion_control.py:89-113 | `last_seq_sent` becomes max(old, seq). The slot's marker moves from unsent to a first-send timestamp, or from anything else to retransmitted. An RTT sample is possible afterwards exactly when the segment was unsent before. The timer is armed. No other slot changes, and the invariant is kept. |
| CcSender.Init | Lab5-part2/congestion_control.py:57-87 | The SYN (number 0, empty payload) is buffered in slot 0 and transmitted with a timestamp. 4999 permits are left, cwnd is 1, the timer is armed, and the invariant holds. |
| CcSender.BufferChunk | Lab5-part2/congestion_control.py:120-128 | A taken permit means the slot of `last_seq_written + 1` was free. The chunk is stored there as DATA with the unsent marker. `last_seq_written` goes up by one and permits go down by one. Every other slot, marker included, is unchanged. |
| CcSender.SendChunk | Lab5-part2/congestion_control.py:120-132 | The write blocks exactly when no permit is free. Otherwise the chunk is buffered under the next number and transmitted exactly when `last_seq_sent - last_ack_recv < int(cwnd)` held. Otherwise it stays unsent. |
| CcSender.WriteChunks | Lab5-part2/congestion_control.py:115-132 | Writing the chunks keeps the invariant and advances `last_seq_written` by the number written. Chunks remain pending only when the permits ran out. Every transmitted packet is DATA with a newly written number. |
| CcSender.WriteChunksPending | Lab5-part2/congestion_control.py:117-122 | The pending chunks are the unwritten tail of the list. |
| CcSender.WriteChunksStores | Lab5-part2/congestion_control.py:117-128 | The k-th written chunk sits as DATA under number `last_seq_written + k` in slot `seq % 5000`. |
| CcSender.WriteChunksStoresAt | Lab5-part2/congestion_control.py:117-128 | For one number k among those the write assigned, the chunk written k-th after `last_seq_written` is still stored in slot `k % 5000` as DATA under number k once all the chunks are written. |
| CcSender.Send | Lab5-part2/congestion_control.py:115-128 | After `send(data)`, the written chunks followed by the pending ones are the data. `last_seq_written` advances by the number of chunks written. The j-th chunk is buffered as DATA `last_seq_written + 1 + j` in its slot, so each buffered payload is 1..1400 bytes. |
| CcSender.HalveCwnd | Lab5-part2/congestion_control.py:136 | `max(1, cwnd // 2)` is an integer, at least 1 and at most cwnd. For cwnd >= 2 it lies in ((cwnd-2)/2, cwnd/2]. |
| CcSender.FirstAckCwnd | Lab5-part2/congestion_control.py:189-212 | From cwnd 1, one new ACK gives 2.5 under AIMD and 4 under slow start without fast retransmit, and 2 in either mode with it. |
| CcSender.GrowCwnd | Lab5-part2/congestion_control.py:189-212 | A new ACK strictly increases cwnd. With slow start, cwnd at least doubles. Without it, cwnd grows by at most 2. |
| CcSender.Samples | Lab5-part2/congestion_control.py:165-174 | The numbers whose RTT is sampled are exactly those freed by the ACK whose marker is a timestamp, in increasing order. |
| CcSender.Advance | Lab5-part2/congestion_control.py:160-187 | A new cumulative ACK `a` sets `last_ack_recv` to `a`. Exactly the slots of (old, a] are emptied, each releasing one permit, and the later slots are untouched. `last_seq_sent` becomes max(old, a). The timer is cancelled when nothing transmitted is outstanding. cwnd grows, and the invariant is kept. Since `last_ack_recv == a` afterwards, the fast-retransmit test at :191 is always false. |
| CcSender.PastWritten | Lab5-part2/congestion_control.py:165-170 | An ACK beyond `last_seq_written` frees every buffered slot and then walks into an empty one. |
| CcSender.OnAck | Lab5-part2/congestion_control.py:160-221 | As written: a stale ACK changes nothing. An ACK beyond `last_seq_written` crashes on an empty slot. Any other ACK is applied, and then the thread dies with the NameError of :220 exactly when the refill loop's guard holds. |
| CcSender.RefillCrashesOnFirstAck | Lab5-part2/congestion_control.py:217-221 | With cwnd 1, one chunk written after the SYN stays unsent. The SYN's ACK then grows cwnd to 2.5 and reaches the NameError. |
| CcSender.Refill | Lab5-part2/congestion_control.py:217-221 | Corrected refill: it transmits `last_seq_sent + 1, +2, …` (the buffered packets) until the guard fails. It ends at min(`last_seq_written`, `last_ack_recv + int(cwnd)`). |
| CcSender.OnAckFixed | Lab5-part2/congestion_control.py:160-221 | Corrected ACK handling: it crashes only for an ACK beyond `last_seq_written`. Otherwise it keeps the invariant, leaves the refill guard false, releases `a - old` permits and grows cwnd. The packets it sends are numbered consecutively from max(`last_seq_sent`, a) + 1. |
| CcSender.OnAckAgrees | Lab5-part2/congestion_control.py:160-221 | Wherever the ACK handling as written survives, or dies on an empty slot, the corrected handling gives the same outcome. Where it dies of the NameError, the corrected handling transmits at least one buffered segment. |
| CcSender.RefillFixedSendsOnFirstAck | Lab5-part2/congestion_control.py:217-221 | With the corrected refill, the same first ACK transmits the waiting chunk as DATA 1. |
| CcSender.ClearSendTimes | Lab5-part2/congestion_control.py:140-143 | Every transmitted, unacknowledged segment gets the unsent marker back. Packets and counters are unchanged. |
| CcSender.Timeout | Lab5-part2/congestion_control.py:134-147 | cwnd becomes `max(1, cwnd // 2)`. The timeout crashes on an empty slot exactly when nothing is written beyond `last_ack_recv`. Otherwise it sends exactly the segment `last_ack_recv + 1`, which ends with a fresh first-send timestamp. The other segments of (ack+1, sent] end unsent, the timer is armed and the permits are unchanged. Every buffered packet and both configuration flags are kept. |
| CcSender.Next | Lab5-part2/congestion_control.py:115-221 | With the corrected refill: one write, ACK or timer expiry keeps the invariant. The only crash left is an ACK beyond `last_seq_written`, and the ACK and write points never move back. As written, the refill's NameError is a second crash (see `OnAck`). |
| CcSender.InitPreAck | Lab5-part2/congestion_control.py:57-87 | The constructor leaves the sender before its first ACK: `last_ack_recv = -1`, `last_seq_sent = 0`, cwnd 1, and only the SYN sent. |
| CcSender.NoDataBeforeFirstAck | Lab5-part2/congestion_control.py:120-147 | Before the first ACK, a write or a timeout never crashes and keeps that state. Anything it sends is numbered 0: the window of one admits no DATA, and the timeout keeps cwnd at 1 and retransmits the SYN. |
| CcSender.Run | Lab5-part2/congestion_control.py:150-221 | With the corrected refill: every state of a run is valid until a crash, and the crash is always an empty-slot fault. |
| CcSender.SessionValid | Lab5-part2/congestion_control.py:62-71 | With the corrected refill: in every state reached from the constructor, cwnd >= 1, free permits + (`last_seq_written - last_ack_recv`) = 5000, and `last_ack_recv <= last_seq_sent <= last_seq_written`. |
| CcReceiver.Init | Lab5-part2/congestion_control.py:226-231 | A fresh receiver has `last_ack_sent = max_seq_recv = -1` and 1000 empty slots, so it is consistent with any sender's payloads. |
| CcReceiver.Drain | Lab5-part2/congestion_control.py:265-279 | The ACK point advances by exactly the number of payloads delivered. It stays at most max(old, `max_seq_recv`), and never more payloads are delivered than slots were occupied. |
| CcReceiver.DrainWindow | Lab5-part2/congestion_control.py:265-279 | The slots of the delivered numbers are emptied. Every slot that is not the slot of a delivered number keeps its content, and every slot still occupied held the same payload before. |
| CcReceiver.DrainStops | Lab5-part2/congestion_control.py:266-274 | The loop stops only at `max_seq_recv` or at the first empty slot after the ACK point. |
| CcReceiver.DrainDelivers | Lab5-part2/congestion_control.py:265-279 | The j-th delivered payload is the content of slot `(last_ack_sent + 1 + j) % 1000`. |
| CcReceiver.OnPacket | Lab5-part2/congestion_control.py:252-285 | As written: a number <= `last_ack_sent` leaves the state unchanged and delivers nothing. Any other packet raises `max_seq_recv` to max(old, seq); `last_ack_sent` never decreases, ends <= `max_seq_recv`, and rises by exactly the number of payloads delivered. The ACK of the new `last_ack_sent` is then sent, and the thread crashes exactly when that ACK cannot be encoded. |
| CcReceiver.Store | Lab5-part2/congestion_control.py:259-279 | Storing a packet beyond `last_ack_sent` raises `max_seq_recv` to max(old, seq). The ACK point never decreases, stays <= `max_seq_recv`, and rises by exactly the number of payloads delivered. |
| CcReceiver.StoreDelivers | Lab5-part2/congestion_control.py:259-279 | Once the packet is stored in slot `seq % 1000`, the j-th delivered payload is the content of slot `(last_ack_sent + 1 + j) % 1000`. Delivery stops at `max_seq_recv` or at the first empty slot. |
| CcReceiver.EarlyPacketCrashes | Lab5-part2/congestion_control.py:259-284 | A fresh receiver whose first packet is numbered 1..999 stores it, delivers nothing and crashes encoding the ACK of -1. |
| CcReceiver.AliasedDelivery | Lab5-part2/congestion_control.py:259-279 | A fresh receiver given packet 1000 delivers its payload as packet 0 and ACKs 0. |
| CcReceiver.OnPacketBounded | Lab5-part2/congestion_control.py:252-285 | Corrected receiver: it never crashes. A number beyond `last_ack_sent + 1000` is dropped with the state unchanged. It sends an ACK exactly when `last_ack_sent` is encodable, and that ACK carries `last_ack_sent`. Within the window it reaches the state and deliveries of the code as written, and wherever that does not crash it behaves identically. |
| CcReceiver.StoreAgrees | Lab5-part2/congestion_control.py:259-261 | Storing an honest packet inside the window keeps every window slot empty or holding its own number's payload. |
| CcReceiver.DrainAgrees | Lab5-part2/congestion_control.py:265-279 | Draining an agreeing window delivers exactly the payloads numbered after the old ACK point, and the window still agrees from the new one. |
| CcReceiver.InWindowStep | Lab5-part2/congestion_control.py:259-285 | An honest in-window packet keeps the window consistent, and what it delivers is the next payloads in order. |
| CcReceiver.BoundedStepInOrder | Lab5-part2/congestion_control.py:252-285 | Every honest packet keeps the corrected receiver consistent. Its deliveries are exactly the payloads from the old ACK point to the new one. |
| CcReceiver.RunBounded | Lab5-part2/congestion_control.py:244-285 | A corrected run sends at most one ACK per packet, and exactly one per packet when the starting and final `last_ack_sent` are both 32-bit numbers. Every ACK is encodable, lies between the starting and final ACK points, and the ACK numbers never decrease. |
| CcReceiver.RunInOrder | Lab5-part2/congestion_control.py:244-285 | Under any loss, reordering or duplication of honest packets, the delivered payloads are those numbered after the starting ACK point up to the final one, in order and each once. |
| CcReceiver.DeliversPrefix | Lab5-part2/congestion_control.py:244-285 | From a fresh receiver, the delivered payloads are exactly those of 0..`last_ack_sent` in order. |
| SwpSender.Init | Lab5-part1/fc/swp.py:63-66 | Numbering starts at 0 with nothing outstanding and no ACK seen. |
| SwpSender.SendChunk | Lab5-part1/fc/swp.py:72-88 | The write is stuck exactly when five or more numbers are outstanding and no ACK was ever seen. Otherwise the chunk is sent as DATA under `next_seq_num`, which joins the outstanding set. `next_seq_num` strictly increases, and every outstanding number stays below it. |
| SwpSender.WriteChunks | Lab5-part1/fc/swp.py:68-70 | The chunks go out in order under consecutive numbers. Those left are the unsent tail, and they are left only when the writer is stuck. |
| SwpSender.Send | Lab5-part1/fc/swp.py:68-70 | The payloads sent, followed by the chunks left, are the data. Every packet is DATA of 1..1400 bytes, numbered consecutively from `next_seq_num`. |
| SwpSender.OnPacket | Lab5-part1/fc/swp.py:110-120 | An ACK for an outstanding number removes exactly that number and sets the event. An ACK for an unknown number, or any non-ACK, changes nothing. |
| SwpSender.WindowNotBounded | Lab5-part1/fc/swp.py:73-76 | Once one ACK has been seen no write ever waits, and each chunk adds an outstanding number. |
| SwpSender.SixOutstanding | Lab5-part1/fc/swp.py:73-76 | After the first ACK, six writes leave six numbers outstanding, more than the window size of 5. |
| SwpReceiver.OnPacket | Lab5-part1/fc/swp.py:150-166 | `expected` advances by one exactly when a DATA packet numbered `expected` arrives, and it never moves otherwise. Exactly that packet's payload is then delivered, and nothing else is. An ACK is sent exactly for DATA numbered <= `expected`; it echoes the packet's number, which is below the new `expected`. A later packet is dropped unanswered. |
| SwpReceiver.RunInOrder | Lab5-part1/fc/swp.py:150-164 | Whatever arrives, the deliveries are the payloads of the numbers from the starting `expected` up to the final one, in order and each once. Every ACK sent is for a number below `expected`. |
| SwpReceiver.DeliversPrefix | Lab5-part1/fc/swp.py:137-156 | From a fresh receiver, the delivered payloads are exactly those of 0..`expected`-1. |

Where the code differs from its own comments or from RFC 5681, the model
follows the code:

- **No ssthresh.** Section 3.1 of RFC 5681 leaves slow start for congestion avoidance at the slow-start threshold. The code has no threshold and no phase. The configuration flag alone picks doubling cwnd on every ACK (congestion_control.py:207-209) or a second additive step.
- **Two additive steps.** The comment at congestion_control.py:203-204 speaks of one increment per ACK. In the AIMD configuration the code adds `1/cwnd` twice per new ACK (lines 204 and 212). The additive step at line 204 is skipped when fast retransmit is configured.
- **First ACK.** Without fast retransmit, the first ACK from cwnd 1 therefore makes cwnd 2.5 in the AIMD configuration and 4 with slow start. With fast retransmit it makes cwnd 2 in either configuration (`FirstAckCwnd`).
- **Timeout.** A timeout halves cwnd to `max(1, cwnd // 2)`, as the comment at congestion_control.py:135 says. Section 3.1 of RFC 5681 instead sets cwnd to one segment after a retransmission timeout.
- **Fast retransmit.** The comment at congestion_control.py:189 announces fast retransmit and recovery. The test at line 191 compares the ACK with `last_ack_recv + 1` after `last_ack_recv` has been set to the ACK, so the branch never fires.

## Left out

- Sockets, the lossy link, threads, locks, semaphores, events, logging and the `CwndPlotter` (and its duplicate definition). Lab5-part2/lower_layer.py, client.py and server.py are not part of this model.
- Races between the application thread running `send`, the timer thread and the ACK thread: `Sender` takes no lock. Each event runs to completion, and the timer is a flag rather than a `threading.Timer` with a duration.
- CcSender.Samples: states which numbers yield an RTT sample, not the floating-point moving average itself, which depends on wall-clock time.
- The `_dup_acks` counter and the body of the fast-retransmit branch. Both are unreachable, as `Advance` shows.
- Continuing after a `Crash`. The source's thread is dead at that point.
- CcSender.SendChunk: does not model the `struct.error` raised when a sequence number reaches 2^32. Numbers are unbounded integers in the sender state.
- SwpSender.SendChunk: the same 2^32 limit is not modelled. A stuck write is `None`, without a model of the deadlock's threads.
- `SWPSender._retransmit`, which calls `to_bytes` on a `Timer` and cannot work, and the timers it restarts.
- The `slow_start` flag in `Receiver._recv`, which only affects logging.
- The loop condition of `Sender._recv` (congestion_control.py:151), which decides only when the thread stops reading ACKs, and its skipping of an empty read.
- Decoding inside the receiving threads. A packet that does not decode raises in `_recv` and ends that thread. The step functions take decoded packets, and decoding is modelled on its own by `Codec.Decode` and `SwpCodec.Decode`.
- IEEE-754 rounding of cwnd. It is an exact real.

## Findings

| source | as written | input that shows it | evidently intended | confidence | as-written member | corrected member |
|---|---|---|---|---|---|---|
| Lab5-part2/congestion_control.py:218-221 | The refill loop reads the unqualified name `_last_seq_sent` at :220, so it raises NameError whenever its guard holds. | `Sender(ll, False, False)`, then `send(b'A')` (not transmitted under cwnd 1), then the ACK of 0: cwnd becomes 2.5 and the guard holds. | Read `self._last_seq_sent` and transmit the waiting segments while the window admits them. | high, not executed | CcSender.RefillCrashesOnFirstAck | CcSender.OnAckFixed |
| Lab5-part2/congestion_control.py:259-261 | A packet numbered beyond `last_ack_sent + 1000` is stored in the slot of a lower number and delivered in its place. | A fresh receiver given DATA 1000 with payload `[7]` delivers `[7]` as packet 0 and ACKs 0. | Drop packets beyond the window and repeat the last ACK. | medium, not executed | CcReceiver.AliasedDelivery | CcReceiver.RunInOrder |
| Lab5-part2/congestion_control.py:281-284 | Until packet 0 has been delivered, `last_ack_sent` is -1. Encoding the ACK of -1 raises `struct.error`, which ends the receiving thread. | A fresh receiver whose first packet is DATA 5 stores it and then crashes. The paired `Sender` never produces this, because it puts nothing but packet 0 on the wire before ACK 0 (`NoDataBeforeFirstAck`). It arises when the receiver restarts (server.py run again) while a client keeps retransmitting `last_ack_recv + 1`, or when another sender's packet arrives. | Send no ACK until something has been acknowledged in order, and keep receiving. | high, not executed | CcReceiver.EarlyPacketCrashes | CcReceiver.OnPacketBounded |

=== FILE: cc_receiver.dfy ===
/**
 * The cumulative-ACK receiver (`Receiver` in Lab5-part2/congestion_control.py):
 * a 1000-slot window indexed by `seq % 1000`, the last acknowledged number
 * and the largest number seen. Each packet is answered by an ACK of the new
 * ACK point, and the payloads that become contiguous are handed to the
 * application in order. Before packet 0 has arrived the ACK point is -1,
 * which has no 32-bit encoding: as written the receiving thread then dies.
 */
module CcReceiver {

  import opened Wrappers
  import opened Wire
  import opened Codec

  const WINDOW_SIZE: int := 1000

  datatype Receiver = Receiver(lastAckSent: int, maxSeqRecv: int, window: seq<Option<seq<byte>>>)

  /**
   * The effect of one packet: the new state, the payloads delivered and the
   * ACK sent, if any; or the state and deliveries the receiving thread had
   * reached when encoding its ACK raised.
   */
  datatype Reply =
    | Reply(r: Receiver, delivered: seq<seq<byte>>, ack: Option<Packet>)
    | Crash(r: Receiver, delivered: seq<seq<byte>>)

  function Slot(k: int): int { k % WINDOW_SIZE }

  function Init(): (r: Receiver)
    ensures r.lastAckSent == -1 && r.maxSeqRecv == -1 && |r.window| == WINDOW_SIZE
    ensures forall i | 0 <= i < WINDOW_SIZE :: r.window[i].None?
    ensures forall payload :: Consistent(r, payload)
  {
    Receiver(-1, -1, seq(WINDOW_SIZE, i => None))
  }

  /** The number of occupied slots. */
  function Occupied(w: seq<Option<seq<byte>>>): (n: nat)
    ensures n <= |w|
  {
    if |w| == 0 then 0 else (if w[0].Some? then 1 else 0) + Occupied(w[1..])
  }

  /** Emptying an occupied slot leaves one occupied slot fewer. */
  lemma {:induction false} OccupiedClear(w: seq<Option<seq<byte>>>, i: int)
    requires 0 <= i < |w| && w[i].Some?
    ensures Occupied(w[i := None]) == Occupied(w) - 1
  {
    if i > 0 {
      assert w[i := None][1..] == w[1..][i - 1 := None];
      OccupiedClear(w[1..], i - 1);
    } else {
      assert w[i := None][1..] == w[1..];
    }
  }

  datatype Drained = Drained(ackNum: int, window: seq<Option<seq<byte>>>, delivered: seq<seq<byte>>)

  /**
   * The ACK loop: starting after ackNum, hands over the payload of
   * each next slot and empties it, stopping at the first empty slot or at
   * maxSeqRecv.
   */
  function Drain(w: seq<Option<seq<byte>>>, a: int, m: int): (d: Drained)
    requires |w| == WINDOW_SIZE
    decreases m - a
    ensures |d.window| == WINDOW_SIZE
    ensures a <= d.ackNum && |d.delivered| == d.ackNum - a
    ensures d.ackNum <= Max(a, m)
    ensures |d.delivered| <= Occupied(w)
  {
    if a < m && w[Slot(a + 1)].Some? then
      var w' := w[Slot(a + 1) := None];
      var d := Drain(w', a + 1, m);
      OccupiedClear(w, Slot(a + 1));
      Drained(d.ackNum, d.window, [w[Slot(a + 1)].value] + d.delivered)
    else Drained(a, w, [])
  }

  /** Draining empties the slots of (a, ackNum] and leaves every other slot as it was. */
  lemma {:induction false} DrainWindow(w: seq<Option<seq<byte>>>, a: int, m: int)
    requires |w| == WINDOW_SIZE
    decreases m - a
    ensures var d := Drain(w, a, m);
      && (forall k | a < k <= d.ackNum :: d.window[Slot(k)].None?)
      && (forall i | 0 <= i < WINDOW_SIZE && d.window[i].Some? :: d.window[i] == w[i])
      && (forall i | 0 <= i < WINDOW_SIZE && (forall k | a < k <= d.ackNum :: Slot(k) != i) ::
            d.window[i] == w[i])
  {
    if a < m && w[Slot(a + 1)].Some? {
      DrainWindow(w[Slot(a + 1) := None], a + 1, m);
    }
  }

  /** Draining stops at maxSeqRecv or at the first empty slot. */
  lemma {:induction false} DrainStops(w: seq<Option<seq<byte>>>, a: int, m: int)
    requires |w| == WINDOW_SIZE
    decreases m - a
    ensures var d := Drain(w, a, m);
      d.ackNum >= m || d.window[Slot(d.ackNum + 1)].None?
  {
    if a < m && w[Slot(a + 1)].Some? {
      DrainStops(w[Slot(a + 1) := None], a + 1, m);
    }
  }

  /** The payloads are handed over in order of their numbers, each read from its own slot. */
  lemma {:induction false} DrainDelivers(w: seq<Option<seq<byte>>>, a: int, m: int)
    requires |w| == WINDOW_SIZE
    decreases m - a
    ensures forall j | 0 <= j < |Drain(w, a, m).delivered| ::
      w[Slot(a + 1 + j)] == Some(Drain(w, a, m).delivered[j])
  {
    var r := Drain(w, a, m);
    if a < m && w[Slot(a + 1)].Some? {
      var w' := w[Slot(a + 1) := None];
      var d := Drain(w', a + 1, m);
      DrainDelivers(w', a + 1, m);
      OccupiedClear(w, Slot(a + 1));
      assert r.delivered == [w[Slot(a + 1)].value] + d.delivered;
      forall j | 0 <= j < |r.delivered|
        ensures w[Slot(a + 1 + j)] == Some(r.delivered[j])
      {
        if j > 0 {
          assert w'[Slot((a + 1) + 1 + (j - 1))] == Some(d.delivered[j - 1]);
          assert (a + 1) + 1 + (j - 1) == a + 1 + j;
          ModDistinct(a + 1, a + 1 + j, WINDOW_SIZE);
        }
      }
    } else {
      assert r.delivered == [];
    }
  }

  function AckOf(n: int): Packet { Packet(ACK, n, []) }

  /** The state and deliveries once a packet has been stored and the window drained. */
  datatype Stored = Stored(r: Receiver, delivered: seq<seq<byte>>)

  /**
   * A packet numbered beyond lastAckSent goes into slot `seq % 1000`,
   * whatever that slot held, maxSeqRecv rises to its number, and the
   * contiguous run after lastAckSent is handed over.
   */
  function Store(r: Receiver, p: Packet): (y: Stored)
    requires |r.window| == WINDOW_SIZE && p.seqNum > r.lastAckSent
    ensures |y.r.window| == WINDOW_SIZE
    ensures y.r.maxSeqRecv == Max(r.maxSeqRecv, p.seqNum)
    ensures r.lastAckSent <= y.r.lastAckSent <= y.r.maxSeqRecv
    ensures |y.delivered| == y.r.lastAckSent - r.lastAckSent
  {
    var w := r.window[Slot(p.seqNum) := Some(p.data)];
    var m := Max(r.maxSeqRecv, p.seqNum);
    var d := Drain(w, r.lastAckSent, m);
    Stored(Receiver(d.ackNum, m, d.window), d.delivered)
  }

  /**
   * What a new packet delivers: the j-th payload is read from the slot of
   * number lastAckSent + 1 + j once the packet is stored, and delivery stops
   * at maxSeqRecv or at the first empty slot.
   */
  lemma StoreDelivers(r: Receiver, p: Packet)
    requires |r.window| == WINDOW_SIZE && p.seqNum > r.lastAckSent
    ensures var y := Store(r, p);
      forall j | 0 <= j < |y.delivered| ::
        r.window[Slot(p.seqNum) := Some(p.data)][Slot(r.lastAckSent + 1 + j)] == Some(y.delivered[j])
    ensures var y := Store(r, p);
      y.r.lastAckSent >= y.r.maxSeqRecv || y.r.window[Slot(y.r.lastAckSent + 1)].None?
  {
    var w := r.window[Slot(p.seqNum) := Some(p.data)];
    var m := Max(r.maxSeqRecv, p.seqNum);
    var d := Drain(w, r.lastAckSent, m);
    var y := Store(r, p);
    assert y.delivered == d.delivered && y.r.lastAckSent == d.ackNum;
    assert y.r.maxSeqRecv == m && y.r.window == d.window;
    assert forall j | 0 <= j < |d.delivered| :: w[Slot(r.lastAckSent + 1 + j)] == Some(d.delivered[j]) by {
      DrainDelivers(w, r.lastAckSent, m);
    }
    assert d.ackNum >= m || d.window[Slot(d.ackNum + 1)].None? by {
      DrainStops(w, r.lastAckSent, m);
    }
  }

  /**
   * The packet handling of `_recv` as written. The type is not looked at.
   * A number at or below lastAckSent leaves the state alone; any other
   * packet is stored. Either way the ACK of the ACK point is then encoded
   * and sent, and encoding raises when the point has no 32-bit encoding.
   */
  function OnPacket(r: Receiver, p: Packet): (y: Reply)
    requires |r.window| == WINDOW_SIZE
    ensures |y.r.window| == WINDOW_SIZE
    ensures y.Crash? <==> Encode(AckOf(y.r.lastAckSent)).Failure?
    ensures y.Reply? ==> y.ack == Some(AckOf(y.r.lastAckSent))
    ensures p.seqNum <= r.lastAckSent ==> y.r == r && y.delivered == []
    ensures p.seqNum > r.lastAckSent ==>
      && y.r.maxSeqRecv == Max(r.maxSeqRecv, p.seqNum)
      && r.lastAckSent <= y.r.lastAckSent <= y.r.maxSeqRecv
      && |y.delivered| == y.r.lastAckSent - r.lastAckSent
  {
    var s := if p.seqNum <= r.lastAckSent then Stored(r, []) else Store(r, p);
    if IsU32(s.r.lastAckSent) then Reply(s.r, s.delivered, Some(AckOf(s.r.lastAckSent)))
    else Crash(s.r, s.delivered)
  }

  /**
   * A fresh receiver given a packet numbered 1 .. 999 first (packet 0 lost
   * or late) stores it, delivers nothing, and dies encoding an ACK of -1.
   */
  lemma EarlyPacketCrashes(n: int, data: seq<byte>)
    requires 0 < n < WINDOW_SIZE
    ensures OnPacket(Init(), Packet(DATA, n, data)) ==
      Crash(Receiver(-1, n, Init().window[n := Some(data)]), [])
  {
    var w := Init().window[Slot(n) := Some(data)];
    assert Slot(n) == n && Slot(-1 + 1) == 0;
    assert Drain(w, -1, n) == Drained(-1, w, []);
  }

  /**
   * A fresh receiver given the packet numbered 1000 stores it in the slot of
   * number 0 and delivers it, acknowledging 0, as if it were the packet
   * numbered 0.
   */
  lemma AliasedDelivery(data: seq<byte>)
    ensures OnPacket(Init(), Packet(DATA, WINDOW_SIZE, data)) ==
      Reply(Receiver(0, WINDOW_SIZE, Init().window), [data], Some(AckOf(0)))
  {
  }

  /**
   * The receiver as evidently intended. A packet numbered beyond
   * lastAckSent + 1000 has no slot of its own in the window, so it is
   * dropped; and while the ACK point has no 32-bit encoding (before packet 0
   * has been delivered) no ACK is sent, so the receiver never dies.
   * Otherwise it behaves as written.
   */
  function OnPacketBounded(r: Receiver, p: Packet): (y: Reply)
    requires |r.window| == WINDOW_SIZE
    ensures y.Reply? && |y.r.window| == WINDOW_SIZE
    ensures y.ack.Some? <==> IsU32(y.r.lastAckSent)
    ensures y.ack.Some? ==> y.ack.value == AckOf(y.r.lastAckSent) && Encode(y.ack.value).Success?
    ensures p.seqNum > r.lastAckSent + WINDOW_SIZE ==> y.r == r && y.delivered == []
    ensures p.seqNum <= r.lastAckSent + WINDOW_SIZE ==>
      y.r == OnPacket(r, p).r && y.delivered == OnPacket(r, p).delivered
    ensures p.seqNum <= r.lastAckSent + WINDOW_SIZE && OnPacket(r, p).Reply? ==> y == OnPacket(r, p)
  {
    var s := if r.lastAckSent < p.seqNum <= r.lastAckSent + WINDOW_SIZE then Store(r, p) else Stored(r, []);
    Reply(s.r, s.delivered, if IsU32(s.r.lastAckSent) then Some(AckOf(s.r.lastAckSent)) else None)
  }

  /**
   * The window agrees with the sender's payloads: each number the window
   * can hold, (lastAckSent, lastAckSent + 1000], has its slot empty or
   * holding that number's payload.
   */
  ghost predicate Consistent(r: Receiver, payload: int -> seq<byte>)
  {
    && |r.window| == WINDOW_SIZE
    && -1 <= r.lastAckSent <= r.maxSeqRecv
    && Agrees(r.window, r.lastAckSent, payload)
  }

  /** The payloads of 0 .. n-1, in order. */
  function Prefix(payload: int -> seq<byte>, n: nat): (ps: seq<seq<byte>>)
    ensures |ps| == n
    ensures forall i | 0 <= i < n :: ps[i] == payload(i)
  {
    seq(n, i => payload(i))
  }

  /** The window's slots agree with the payloads over (a, a + 1000]. */
  ghost predicate Agrees(w: seq<Option<seq<byte>>>, a: int, payload: int -> seq<byte>)
    requires |w| == WINDOW_SIZE
  {
    forall k | a < k <= a + WINDOW_SIZE :: w[Slot(k)].None? || w[Slot(k)] == Some(payload(k))
  }

  /** Storing an honest packet that falls inside the window keeps the window in agreement. */
  lemma StoreAgrees(w: seq<Option<seq<byte>>>, a: int, p: Packet, payload: int -> seq<byte>)
    requires |w| == WINDOW_SIZE && Agrees(w, a, payload)
    requires a < p.seqNum <= a + WINDOW_SIZE && p.data == payload(p.seqNum)
    ensures Agrees(w[Slot(p.seqNum) := Some(p.data)], a, payload)
  {
    var w' := w[Slot(p.seqNum) := Some(p.data)];
    forall k | a < k <= a + WINDOW_SIZE
      ensures w'[Slot(k)].None? || w'[Slot(k)] == Some(payload(k))
    {
      if k < p.seqNum { ModDistinct(k, p.seqNum, WINDOW_SIZE); }
      else if k > p.seqNum { ModDistinct(p.seqNum, k, WINDOW_SIZE); }
    }
  }

  /** The payloads numbered lo+1, lo+2, ... in order. */
  ghost predicate PayloadsFrom(ds: seq<seq<byte>>, lo: int, payload: int -> seq<byte>)
  {
    forall j | 0 <= j < |ds| :: ds[j] == payload(lo + 1 + j)
  }

  /**
   * Draining a window that agrees with the payloads hands over exactly the
   * payloads after a, and leaves a window that agrees from the new ACK point.
   */
  lemma DrainAgrees(w: seq<Option<seq<byte>>>, a: int, m: int, payload: int -> seq<byte>)
    requires |w| == WINDOW_SIZE && Agrees(w, a, payload)
    ensures var d := Drain(w, a, m);
      && Agrees(d.window, d.ackNum, payload)
      && PayloadsFrom(d.delivered, a, payload)
  {
    var d := Drain(w, a, m);
    DrainDelivers(w, a, m);
    DrainWindow(w, a, m);
    forall j | 0 <= j < |d.delivered|
      ensures d.delivered[j] == payload(a + 1 + j)
    {
      assert w[Slot(a + 1 + j)] == Some(d.delivered[j]);
    }
    forall k | d.ackNum < k <= d.ackNum + WINDOW_SIZE
      ensures d.window[Slot(k)].None? || d.window[Slot(k)] == Some(payload(k))
    {
      if k > a + WINDOW_SIZE {
        var k' := k - WINDOW_SIZE;
        assert a < k' <= d.ackNum;
        DivModUnique(k' / WINDOW_SIZE + 1, k' % WINDOW_SIZE, WINDOW_SIZE);
        assert Slot(k') == Slot(k);
      } else if d.window[Slot(k)].Some? {
        assert d.window[Slot(k)] == w[Slot(k)];
      }
    }
  }

  /**
   * With honest packets (each carries its own number's payload) and the
   * bound, a packet keeps the window consistent, and what it delivers is
   * exactly the payloads from the old ACK point up to the new one.
   */
  lemma BoundedStepInOrder(r: Receiver, p: Packet, payload: int -> seq<byte>)
    requires Consistent(r, payload)
    requires p.data == payload(p.seqNum)
    ensures var y := OnPacketBounded(r, p);
      && Consistent(y.r, payload)
      && y.r.lastAckSent >= r.lastAckSent
      && |y.delivered| == y.r.lastAckSent - r.lastAckSent
      && PayloadsFrom(y.delivered, r.lastAckSent, payload)
  {
    if r.lastAckSent < p.seqNum <= r.lastAckSent + WINDOW_SIZE {
      InWindowStep(r, p, payload);
      assert OnPacketBounded(r, p).r == Store(r, p).r;
      assert OnPacketBounded(r, p).delivered == Store(r, p).delivered;
    }
  }

  lemma InWindowStep(r: Receiver, p: Packet, payload: int -> seq<byte>)
    requires Consistent(r, payload)
    requires p.data == payload(p.seqNum)
    requires r.lastAckSent < p.seqNum <= r.lastAckSent + WINDOW_SIZE
    ensures var y := Store(r, p);
      && Consistent(y.r, payload)
      && PayloadsFrom(y.delivered, r.lastAckSent, payload)
  {
    var a := r.lastAckSent;
    StoreAgrees(r.window, a, p, payload);
    var w := r.window[Slot(p.seqNum) := Some(p.data)];
    var m := Max(r.maxSeqRecv, p.seqNum);
    DrainAgrees(w, a, m, payload);
  }

  /** What a receiver has done after a sequence of packets. */
  datatype Session = Session(r: Receiver, delivered: seq<seq<byte>>, acks: seq<Packet>)

  /**
   * The corrected receiver handling packets one after another: the ACKs it
   * sends, one per packet once packet 0 has been delivered, are all
   * encodable and never go backwards.
   */
  function RunBounded(r: Receiver, ps: seq<Packet>): (y: Session)
    requires |r.window| == WINDOW_SIZE
    decreases |ps|
    ensures |y.r.window| == WINDOW_SIZE
    ensures y.r.lastAckSent >= r.lastAckSent
    ensures |y.acks| <= |ps|
    ensures IsU32(r.lastAckSent) && IsU32(y.r.lastAckSent) ==> |y.acks| == |ps|
    ensures forall i | 0 <= i < |y.acks| ::
      && y.acks[i] == AckOf(y.acks[i].seqNum) && IsU32(y.acks[i].seqNum)
      && r.lastAckSent <= y.acks[i].seqNum <= y.r.lastAckSent
    ensures forall i, j | 0 <= i < j < |y.acks| :: y.acks[i].seqNum <= y.acks[j].seqNum
  {
    if |ps| == 0 then Session(r, [], [])
    else
      var step := OnPacketBounded(r, ps[0]);
      var rest := RunBounded(step.r, ps[1..]);
      var sent := if step.ack.Some? then [step.ack.value] else [];
      Session(rest.r, step.delivered + rest.delivered, sent + rest.acks)
  }

  /** Every packet carries the payload of its own number. */
  ghost predicate Honest(ps: seq<Packet>, payload: int -> seq<byte>)
  {
    forall i | 0 <= i < |ps| :: ps[i].data == payload(ps[i].seqNum)
  }

  lemma HonestTail(ps: seq<Packet>, payload: int -> seq<byte>)
    requires |ps| > 0 && Honest(ps, payload)
    ensures Honest(ps[1..], payload)
  {
    forall i | 0 <= i < |ps[1..]| ensures ps[1..][i].data == payload(ps[1..][i].seqNum) {
      assert ps[1..][i] == ps[i + 1];
    }
  }

  lemma PayloadsConcat(ds1: seq<seq<byte>>, ds2: seq<seq<byte>>, lo: int, mid: int, payload: int -> seq<byte>)
    requires mid == lo + |ds1|
    requires PayloadsFrom(ds1, lo, payload) && PayloadsFrom(ds2, mid, payload)
    ensures PayloadsFrom(ds1 + ds2, lo, payload)
  {
    forall j | |ds1| <= j < |ds1 + ds2|
      ensures (ds1 + ds2)[j] == payload(lo + 1 + j)
    {
      assert (ds1 + ds2)[j] == ds2[j - |ds1|];
    }
  }

  /**
   * Whatever the order, loss or duplication of honest packets, the payloads
   * delivered are those numbered after the starting ACK point, in order, up
   * to the final ACK point.
   */
  lemma {:induction false} RunInOrder(r: Receiver, ps: seq<Packet>, payload: int -> seq<byte>)
    requires Consistent(r, payload) && Honest(ps, payload)
    decreases |ps|
    ensures var y := RunBounded(r, ps);
      && Consistent(y.r, payload)
      && |y.delivered| == y.r.lastAckSent - r.lastAckSent
      && PayloadsFrom(y.delivered, r.lastAckSent, payload)
  {
    if |ps| > 0 {
      var step := OnPacketBounded(r, ps[0]);
      BoundedStepInOrder(r, ps[0], payload);
      HonestTail(ps, payload);
      RunInOrder(step.r, ps[1..], payload);
      var rest := RunBounded(step.r, ps[1..]);
      assert RunBounded(r, ps).delivered == step.delivered + rest.delivered;
      PayloadsConcat(step.delivered, rest.delivered, r.lastAckSent, step.r.lastAckSent, payload);
    }
  }

  /** From a fresh receiver, the delivered payloads are exactly those of 0 .. lastAckSent. */
  lemma DeliversPrefix(ps: seq<Packet>, payload: int -> seq<byte>)
    requires Honest(ps, payload)
    ensures var y := RunBounded(Init(), ps);
      y.delivered == Prefix(payload, y.r.lastAckSent + 1)
  {
    RunInOrder(Init(), ps, payload);
  }
}

=== FILE: cc_sender.dfy ===
/**
 * The congestion-controlled sender (`Sender` in
 * Lab5-part2/congestion_control.py) as a pure state machine.
 *
 * The send buffer is a 5000-slot circular buffer indexed by
 * `seq % 5000`; the slot-count semaphore is an integer number of free
 * permits; the retransmission timer is a flag saying whether one is
 * scheduled; the wall clock is the `now` argument of each step.
 */
module CcSender {

  import opened Wrappers
  import opened Wire
  import opened Segmentation
  import opened Codec

  const BUF_SIZE: int := 5000

  /**
   * A slot's `send_time`: `None` (never sent), a timestamp (sent exactly
   * once, so an RTT sample may be taken), or `0` (retransmitted).
   */
  datatype Marker = Unsent | SentAt(time: int) | Retransmitted

  datatype Entry = Entry(packet: Packet, mark: Marker)

  datatype Sender = Sender(
    lastAckRecv: int,
    lastSeqSent: int,
    lastSeqWritten: int,
    buf: seq<Option<Entry>>,
    permits: int,
    cwnd: real,
    timerArmed: bool,
    useSlowStart: bool,
    useFastRetransmit: bool)

  /** The two ways the sender's threads die with an exception. */
  datatype Fault =
    | EmptySlot        // a `None` buffer slot is subscripted (TypeError)
    | RefillNameError  // the refill loop reads an undefined bare name (NameError)

  /**
   * The result of one event: the new state, the packets put on the link,
   * and the sequence numbers whose RTT was sampled; or the exception that
   * ended the thread, with the state as the exception left it.
   */
  datatype Outcome =
    | Step(s: Sender, sent: seq<Packet>, sampled: seq<int>)
    | Crash(at: Sender, fault: Fault)

  datatype Written = Written(s: Sender, sent: seq<Packet>)

  function SlotOf(k: int): int { k % BUF_SIZE }

  /** Every sequence number in (lastAckRecv, lastSeqWritten] sits in its own slot. */
  ghost predicate WindowHeld(s: Sender)
    requires |s.buf| == BUF_SIZE
  {
    forall k | s.lastAckRecv < k <= s.lastSeqWritten ::
      s.buf[SlotOf(k)].Some? && s.buf[SlotOf(k)].value.packet.seqNum == k
  }

  /** An occupied slot holds an unacknowledged, written segment that maps to it. */
  ghost predicate OnlyWindowOccupied(s: Sender)
    requires |s.buf| == BUF_SIZE
  {
    forall i | 0 <= i < BUF_SIZE && s.buf[i].Some? ::
      s.lastAckRecv < s.buf[i].value.packet.seqNum <= s.lastSeqWritten &&
      s.buf[i].value.packet.seqNum % BUF_SIZE == i
  }

  /** Segments above lastSeqSent have never been transmitted. */
  ghost predicate UnsentAbove(s: Sender)
    requires |s.buf| == BUF_SIZE
  {
    forall k | s.lastSeqSent < k <= s.lastSeqWritten ::
      s.buf[SlotOf(k)].Some? && s.buf[SlotOf(k)].value.mark.Unsent?
  }

  /** The invariant of every state the sender reaches. */
  ghost predicate Valid(s: Sender)
  {
    && |s.buf| == BUF_SIZE
    && -1 <= s.lastAckRecv <= s.lastSeqSent <= s.lastSeqWritten
    && s.cwnd >= 1.0
    && 0 <= s.permits
    // semaphore conservation: free permits plus outstanding segments
    && s.permits + (s.lastSeqWritten - s.lastAckRecv) == BUF_SIZE
    // the single timer is live exactly while transmitted data is unacknowledged
    && (s.timerArmed <==> s.lastAckRecv < s.lastSeqSent)
    && WindowHeld(s)
    && OnlyWindowOccupied(s)
    && UnsentAbove(s)
  }

  /** Every occupied slot of a still holds the same packet in b. */
  ghost predicate PacketsKept(a: Sender, b: Sender)
    requires |a.buf| == BUF_SIZE && |b.buf| == BUF_SIZE
  {
    forall i | 0 <= i < BUF_SIZE && a.buf[i].Some? ::
      b.buf[i].Some? && b.buf[i].value.packet == a.buf[i].value.packet
  }

  lemma PacketsKeptTrans(a: Sender, b: Sender, c: Sender)
    requires |a.buf| == BUF_SIZE && |b.buf| == BUF_SIZE && |c.buf| == BUF_SIZE
    requires PacketsKept(a, b) && PacketsKept(b, c)
    ensures PacketsKept(a, c)
  {
  }

  /** Karn's rule as the ACK handler applies it: only a segment sent exactly once yields an RTT sample. */
  predicate Sampleable(s: Sender, k: int)
    requires |s.buf| == BUF_SIZE
  {
    s.buf[SlotOf(k)].Some? && s.buf[SlotOf(k)].value.mark.SentAt?
  }

  /** The window admits another segment: fewer than the integer part of cwnd are in flight. */
  predicate Admits(s: Sender)
  {
    s.lastSeqSent - s.lastAckRecv < s.cwnd.Floor
  }

  lemma SlotsDistinct(s: Sender, a: int, b: int)
    requires Valid(s)
    requires s.lastAckRecv < a <= s.lastSeqWritten && s.lastAckRecv < b <= s.lastSeqWritten
    requires a != b
    ensures SlotOf(a) != SlotOf(b)
  {
  }

  /** With a free permit the next sequence number's slot is empty. */
  lemma NextSlotFree(s: Sender)
    requires Valid(s) && s.permits > 0
    ensures s.buf[SlotOf(s.lastSeqWritten + 1)].None?
  {
  }

  /**
   * `_transmit(seq)`: puts the slot's packet on the link, raises
   * lastSeqSent to seq, moves the marker from unsent to a first-send
   * timestamp and from anything else to the retransmitted marker, and
   * (re)starts the single timer.
   */
  function Transmit(s: Sender, k: int, now: int): (r: Sender)
    requires Valid(s) && s.lastAckRecv < k <= s.lastSeqWritten
    ensures Valid(r)
    ensures r.lastSeqSent == Max(s.lastSeqSent, k)
    ensures PacketsKept(s, r)
    ensures Sampleable(r, k) <==> s.buf[SlotOf(k)].value.mark.Unsent?
    ensures s.buf[SlotOf(k)].value.mark.Unsent? ==> r.buf[SlotOf(k)].value.mark == SentAt(now)
    ensures !s.buf[SlotOf(k)].value.mark.Unsent? ==> r.buf[SlotOf(k)].value.mark == Retransmitted
    ensures forall i | 0 <= i < BUF_SIZE && i != SlotOf(k) :: r.buf[i] == s.buf[i]
    ensures r.timerArmed
    ensures r.lastAckRecv == s.lastAckRecv && r.lastSeqWritten == s.lastSeqWritten
    ensures r.permits == s.permits && r.cwnd == s.cwnd
    ensures r.useSlowStart == s.useSlowStart && r.useFastRetransmit == s.useFastRetransmit
  {
    var e := s.buf[SlotOf(k)].value;
    var mark := if e.mark.Unsent? then SentAt(now) else Retransmitted;
    var r := s.(lastSeqSent := Max(s.lastSeqSent, k),
                buf := s.buf[SlotOf(k) := Some(e.(mark := mark))],
                timerArmed := true);
    assert UnsentAbove(r) by {
      forall j | r.lastSeqSent < j <= r.lastSeqWritten
        ensures r.buf[SlotOf(j)].Some? && r.buf[SlotOf(j)].value.mark.Unsent?
      {
        SlotsDistinct(s, j, k);
      }
    }
    r
  }

  /**
   * The constructor: an empty buffer with 5000 permits, cwnd 1, and the
   * SYN (sequence 0) buffered with one permit taken and transmitted.
   */
  function Init(useSlowStart: bool, useFastRetransmit: bool, now: int): (r: Written)
    ensures Valid(r.s)
    ensures r.sent == [Packet(SYN, 0, [])]
    ensures r.s.lastAckRecv == -1 && r.s.lastSeqSent == 0 && r.s.lastSeqWritten == 0
    ensures r.s.permits == BUF_SIZE - 1 && r.s.cwnd == 1.0 && r.s.timerArmed
    ensures r.s.buf[0] == Some(Entry(Packet(SYN, 0, []), SentAt(now)))
    ensures r.s.useSlowStart == useSlowStart && r.s.useFastRetransmit == useFastRetransmit
  {
    var syn := Packet(SYN, 0, []);
    var buf := seq(BUF_SIZE, i requires 0 <= i < BUF_SIZE => if i == 0 then Some(Entry(syn, Unsent)) else None);
    var s0 := Sender(-1, -1, 0, buf, BUF_SIZE - 1, 1.0, false, useSlowStart, useFastRetransmit);
    assert SlotOf(0) == 0;
    assert Valid(s0);
    Written(Transmit(s0, 0, now), [syn])
  }

  /**
   * The buffering half of `_send(data)`: with a permit taken, the chunk is
   * stored as DATA under the next sequence number, in a slot that was free,
   * with the unsent marker.
   */
  function BufferChunk(s: Sender, data: seq<byte>): (r: Sender)
    requires Valid(s) && s.permits > 0
    ensures Valid(r)
    ensures s.buf[SlotOf(s.lastSeqWritten + 1)].None?
    ensures r.buf[SlotOf(s.lastSeqWritten + 1)] == Some(Entry(Packet(DATA, s.lastSeqWritten + 1, data), Unsent))
    ensures PacketsKept(s, r)
    ensures forall i | 0 <= i < BUF_SIZE && i != SlotOf(s.lastSeqWritten + 1) :: r.buf[i] == s.buf[i]
    ensures r == s.(lastSeqWritten := s.lastSeqWritten + 1, permits := s.permits - 1, buf := r.buf)
  {
    var k := s.lastSeqWritten + 1;
    NextSlotFree(s);
    var r := s.(permits := s.permits - 1, lastSeqWritten := k,
                buf := s.buf[SlotOf(k) := Some(Entry(Packet(DATA, k, data), Unsent))]);
    assert WindowHeld(r) by {
      forall j | r.lastAckRecv < j <= r.lastSeqWritten
        ensures r.buf[SlotOf(j)].Some? && r.buf[SlotOf(j)].value.packet.seqNum == j
      {
        if j < k { ModDistinct(j, k, BUF_SIZE); }
      }
    }
    assert UnsentAbove(r) by {
      forall j | r.lastSeqSent < j <= r.lastSeqWritten
        ensures r.buf[SlotOf(j)].Some? && r.buf[SlotOf(j)].value.mark.Unsent?
      {
        if j < k { ModDistinct(j, k, BUF_SIZE); }
      }
    }
    r
  }

  /**
   * `_send(data)`: takes a permit (None when none is free: the caller
   * would block until an acknowledgment releases one), buffers the chunk,
   * and transmits it at once only when the window admits it.
   */
  function SendChunk(s: Sender, data: seq<byte>, now: int): (r: Option<Written>)
    requires Valid(s)
    ensures r.None? <==> s.permits == 0
    ensures r.Some? ==> Valid(r.value.s)
    ensures r.Some? ==> r.value.s.lastSeqWritten == s.lastSeqWritten + 1
    ensures r.Some? ==> r.value.s.permits == s.permits - 1
    ensures r.Some? ==>
      r.value.s.buf[SlotOf(s.lastSeqWritten + 1)].Some? &&
      r.value.s.buf[SlotOf(s.lastSeqWritten + 1)].value.packet == Packet(DATA, s.lastSeqWritten + 1, data)
    ensures r.Some? && Admits(s) ==>
      r.value.sent == [Packet(DATA, s.lastSeqWritten + 1, data)] &&
      r.value.s.lastSeqSent == s.lastSeqWritten + 1
    ensures r.Some? && !Admits(s) ==> r.value.sent == [] && r.value.s.lastSeqSent == s.lastSeqSent
    ensures r.Some? ==> PacketsKept(s, r.value.s)
    ensures r.Some? ==> r.value.s.lastAckRecv == s.lastAckRecv && r.value.s.cwnd == s.cwnd
    ensures r.Some? ==>
      r.value.s.useSlowStart == s.useSlowStart && r.value.s.useFastRetransmit == s.useFastRetransmit
  {
    if s.permits == 0 then None
    else
      var k := s.lastSeqWritten + 1;
      var b := BufferChunk(s, data);
      if Admits(b) then Some(Written(Transmit(b, k, now), [Packet(DATA, k, data)]))
      else Some(Written(b, []))
  }

  /**
   * `send(data)`: the chunks of data, written one after another. The
   * chunks left when the permits run out are returned as pending: the
   * caller stays blocked on them.
   */
  datatype SendOutcome = SendOutcome(s: Sender, sent: seq<Packet>, pending: seq<seq<byte>>)

  function WriteChunks(s: Sender, chunks: seq<seq<byte>>, now: int): (r: SendOutcome)
    requires Valid(s)
    decreases |chunks|
    ensures Valid(r.s)
    ensures |r.pending| <= |chunks|
    ensures r.s.lastSeqWritten == s.lastSeqWritten + (|chunks| - |r.pending|)
    ensures r.pending != [] ==> r.s.permits == 0
    ensures PacketsKept(s, r.s)
    ensures forall j | 0 <= j < |r.sent| ::
      r.sent[j].ptype == DATA && s.lastSeqWritten < r.sent[j].seqNum <= r.s.lastSeqWritten
    ensures r.s.lastAckRecv == s.lastAckRecv && r.s.cwnd == s.cwnd
    ensures r.s.useSlowStart == s.useSlowStart && r.s.useFastRetransmit == s.useFastRetransmit
  {
    if |chunks| == 0 then SendOutcome(s, [], [])
    else
      match SendChunk(s, chunks[0], now)
      case None => SendOutcome(s, [], chunks)
      case Some(w) =>
        var rest := WriteChunks(w.s, chunks[1..], now);
        SendOutcome(rest.s, w.sent + rest.sent, rest.pending)
  }

  /** What is left pending is the unwritten tail of the chunks. */
  lemma {:induction false} WriteChunksPending(s: Sender, chunks: seq<seq<byte>>, now: int)
    requires Valid(s)
    decreases |chunks|
    ensures var r := WriteChunks(s, chunks, now);
      r.pending == chunks[|chunks| - |r.pending|..]
  {
    if |chunks| > 0 && s.permits > 0 {
      var w := SendChunk(s, chunks[0], now).value;
      WriteChunksPending(w.s, chunks[1..], now);
    }
  }

  /** The written chunks sit, in order, under consecutive sequence numbers as DATA packets. */
  lemma {:induction false} WriteChunksStores(s: Sender, chunks: seq<seq<byte>>, now: int)
    requires Valid(s)
    ensures var r := WriteChunks(s, chunks, now);
      forall k | s.lastSeqWritten < k <= r.s.lastSeqWritten ::
        r.s.buf[SlotOf(k)].Some? &&
        r.s.buf[SlotOf(k)].value.packet == Packet(DATA, k, chunks[k - s.lastSeqWritten - 1])
  {
    var r := WriteChunks(s, chunks, now);
    forall k | s.lastSeqWritten < k <= r.s.lastSeqWritten
      ensures r.s.buf[SlotOf(k)].Some? &&
        r.s.buf[SlotOf(k)].value.packet == Packet(DATA, k, chunks[k - s.lastSeqWritten - 1])
    {
      WriteChunksStoresAt(s, chunks, now, k);
    }
  }

  lemma {:induction false} WriteChunksStoresAt(s: Sender, chunks: seq<seq<byte>>, now: int, k: int)
    requires Valid(s)
    requires s.lastSeqWritten < k <= WriteChunks(s, chunks, now).s.lastSeqWritten
    decreases |chunks|
    ensures var r := WriteChunks(s, chunks, now);
      r.s.buf[SlotOf(k)].Some? &&
      r.s.buf[SlotOf(k)].value.packet == Packet(DATA, k, chunks[k - s.lastSeqWritten - 1])
  {
    var w := SendChunk(s, chunks[0], now).value;
    var rest := WriteChunks(w.s, chunks[1..], now);
    assert WriteChunks(s, chunks, now).s == rest.s;
    if k == s.lastSeqWritten + 1 {
      assert rest.s.buf[SlotOf(k)].Some? && rest.s.buf[SlotOf(k)].value.packet == Packet(DATA, k, chunks[0]) by {
        assert PacketsKept(w.s, rest.s);
        assert w.s.buf[SlotOf(k)].Some?;
      }
    } else {
      var j := k - s.lastSeqWritten - 1;
      assert rest.s.buf[SlotOf(k)].Some? && rest.s.buf[SlotOf(k)].value.packet == Packet(DATA, k, chunks[j]) by {
        WriteChunksStoresAt(w.s, chunks[1..], now, k);
        assert k - w.s.lastSeqWritten - 1 == j - 1;
        assert chunks[1..][j - 1] == chunks[j];
      }
    }
  }

  function Send(s: Sender, data: seq<byte>, now: int): (r: SendOutcome)
    requires Valid(s)
    ensures Valid(r.s)
    ensures |r.pending| <= |Chunks(data)|
    ensures Flatten(Chunks(data)[..|Chunks(data)| - |r.pending|]) + Flatten(r.pending) == data
    ensures r.s.lastSeqWritten == s.lastSeqWritten + |Chunks(data)| - |r.pending|
    ensures forall k | s.lastSeqWritten < k <= r.s.lastSeqWritten ::
      r.s.buf[SlotOf(k)].Some? &&
      r.s.buf[SlotOf(k)].value.packet == Packet(DATA, k, Chunks(data)[k - s.lastSeqWritten - 1])
    ensures forall k | s.lastSeqWritten < k <= r.s.lastSeqWritten ::
      r.s.buf[SlotOf(k)].Some? && 0 < |r.s.buf[SlotOf(k)].value.packet.data| <= MAX_DATA_SIZE
    ensures r.pending != [] ==> r.s.permits == 0
  {
    var cs := Chunks(data);
    var r := WriteChunks(s, cs, now);
    WriteChunksStores(s, cs, now);
    WriteChunksPending(s, cs, now);
    ChunksFlatten(data);
    ChunksBounded(data);
    FlattenSplit(cs, |cs| - |r.pending|);
    r
  }

  /**
   * `cwnd // 2` floored at 1: for a window of two or more the result is
   * the integer half, otherwise 1.
   */
  function HalveCwnd(c: real): (r: real)
    requires c >= 1.0
    ensures 1.0 <= r <= c
    ensures r == r.Floor as real
    ensures c >= 2.0 ==> 2.0 * r <= c < 2.0 * r + 2.0
    ensures c < 2.0 ==> r == 1.0
  {
    var h := (c / 2.0).Floor as real;
    if h < 1.0 then 1.0 else h
  }

  /**
   * The window growth of one new cumulative ACK: an additive step of 1/cwnd
   * unless fast retransmit is configured (its duplicate-ACK branch then runs
   * instead and never fires), followed by doubling under slow start or a
   * second additive step of 1/cwnd otherwise.
   */
  function GrowCwnd(c: real, slowStart: bool, fastRetransmit: bool): (r: real)
    requires c >= 1.0
    ensures r > c
    ensures slowStart ==> r >= 2.0 * c
    ensures !slowStart ==> r <= c + 2.0
  {
    assert 0.0 < 1.0 / c <= 1.0;
    var c1 := if fastRetransmit then c else c + 1.0 / c;
    assert 0.0 < 1.0 / c1 <= 1.0;
    if slowStart then c1 * 2.0 else c1 + 1.0 / c1
  }

  /**
   * The first ACK of a session, from cwnd 1: 2.5 under AIMD and 4 under
   * slow start, but 2 in either mode once fast retransmit is configured.
   */
  lemma FirstAckCwnd(slowStart: bool, fastRetransmit: bool)
    ensures GrowCwnd(1.0, slowStart, fastRetransmit) ==
      if fastRetransmit then 2.0 else if slowStart then 4.0 else 2.5
  {
  }

  /** Sequence numbers in (lo, hi], in increasing order, whose RTT is sampled when freed. */
  function Samples(s: Sender, lo: int, hi: int): (r: seq<int>)
    requires |s.buf| == BUF_SIZE
    decreases hi - lo
    ensures forall k :: k in r <==> lo < k <= hi && Sampleable(s, k)
    ensures forall i | 0 <= i < |r| :: lo < r[i] <= hi
    ensures forall i, j | 0 <= i < j < |r| :: r[i] < r[j]
  {
    if lo >= hi then []
    else
      var rest := Samples(s, lo + 1, hi);
      if Sampleable(s, lo + 1) then [lo + 1] + rest else rest
  }

  /** Empties every slot holding a segment numbered at most a. */
  function FreeThrough(buf: seq<Option<Entry>>, a: int): (r: seq<Option<Entry>>)
    ensures |r| == |buf|
  {
    seq(|buf|, i requires 0 <= i < |buf| =>
      if buf[i].Some? && buf[i].value.packet.seqNum <= a then None else buf[i])
  }

  /**
   * The acknowledgment body of `_recv` for a new cumulative ACK `a`, up to
   * (not including) the refill loop: frees the slots of (lastAckRecv, a]
   * releasing one permit each, raises lastSeqSent to at least a, cancels
   * the timer when nothing transmitted is outstanding, and grows cwnd.
   */
  function Advance(s: Sender, a: int): (r: Sender)
    requires Valid(s) && s.lastAckRecv < a <= s.lastSeqWritten
    ensures Valid(r)
    ensures r.lastAckRecv == a && r.lastSeqWritten == s.lastSeqWritten
    ensures r.permits == s.permits + (a - s.lastAckRecv)
    ensures forall k | s.lastAckRecv < k <= a :: r.buf[SlotOf(k)].None?
    ensures forall k | a < k <= s.lastSeqWritten :: r.buf[SlotOf(k)] == s.buf[SlotOf(k)]
    ensures r.lastSeqSent == Max(s.lastSeqSent, a)
    ensures r.timerArmed <==> s.timerArmed && r.lastAckRecv != r.lastSeqSent
    ensures r.cwnd == GrowCwnd(s.cwnd, s.useSlowStart, s.useFastRetransmit)
    ensures r.useSlowStart == s.useSlowStart && r.useFastRetransmit == s.useFastRetransmit
  {
    var sent := Max(s.lastSeqSent, a);
    var r := s.(lastAckRecv := a,
                buf := FreeThrough(s.buf, a),
                permits := s.permits + (a - s.lastAckRecv),
                lastSeqSent := sent,
                timerArmed := s.timerArmed && a != sent,
                cwnd := GrowCwnd(s.cwnd, s.useSlowStart, s.useFastRetransmit));
    assert forall k | s.lastAckRecv < k <= a :: r.buf[SlotOf(k)].None? by {
      forall k | s.lastAckRecv < k <= a ensures r.buf[SlotOf(k)].None? {
        assert s.buf[SlotOf(k)].value.packet.seqNum == k;
      }
    }
    assert WindowHeld(r) by {
      forall k | r.lastAckRecv < k <= r.lastSeqWritten
        ensures r.buf[SlotOf(k)].Some? && r.buf[SlotOf(k)].value.packet.seqNum == k
      {
        assert s.buf[SlotOf(k)].value.packet.seqNum == k;
      }
    }
    r
  }

  /** The refill loop's guard: buffered segments wait and the window has room. */
  predicate RefillGuard(s: Sender)
  {
    s.lastSeqSent < s.lastSeqWritten && Admits(s)
  }

  /** The state `_recv` leaves when an ACK beyond lastSeqWritten reaches an empty slot. */
  function PastWritten(s: Sender): (r: Sender)
    requires Valid(s)
    ensures r.lastAckRecv == s.lastSeqWritten + 1
    ensures |r.buf| == BUF_SIZE
    ensures r.permits == s.permits + (s.lastSeqWritten - s.lastAckRecv)
    ensures forall i | 0 <= i < BUF_SIZE :: r.buf[i].None?
  {
    s.(lastAckRecv := s.lastSeqWritten + 1,
       buf := FreeThrough(s.buf, s.lastSeqWritten),
       permits := s.permits + (s.lastSeqWritten - s.lastAckRecv))
  }

  /**
   * The ACK handling of `_recv` as written. The packet's type is not
   * looked at. A number at or below lastAckRecv changes nothing; one
   * beyond lastSeqWritten walks into an empty slot; otherwise the ACK is
   * applied, and whenever the refill loop's guard then holds, the
   * NameError of the refill loop ends the thread.
   */
  function OnAck(s: Sender, p: Packet): (r: Outcome)
    requires Valid(s)
    ensures p.seqNum <= s.lastAckRecv ==> r == Step(s, [], [])
    ensures p.seqNum > s.lastSeqWritten ==> r == Crash(PastWritten(s), EmptySlot)
    ensures s.lastAckRecv < p.seqNum <= s.lastSeqWritten ==>
      (r.Crash? <==> RefillGuard(Advance(s, p.seqNum)))
    ensures r.Crash? && r.fault == RefillNameError ==> r.at == Advance(s, p.seqNum)
    ensures r.Step? ==> Valid(r.s) && r.sent == [] && !(s.lastAckRecv < p.seqNum && RefillGuard(r.s))
    ensures r.Step? && s.lastAckRecv < p.seqNum ==>
      r.s == Advance(s, p.seqNum) && r.sampled == Samples(s, s.lastAckRecv, p.seqNum)
  {
    var a := p.seqNum;
    if a <= s.lastAckRecv then Step(s, [], [])
    else if a > s.lastSeqWritten then Crash(PastWritten(s), EmptySlot)
    else
      var t := Advance(s, a);
      if RefillGuard(t) then Crash(t, RefillNameError)
      else Step(t, [], Samples(s, s.lastAckRecv, a))
  }

  /**
   * The refill loop as evidently intended (reading the sender's own last-sent counter):
   * transmit lastSeqSent + 1 while buffered segments wait and the window
   * has room.
   */
  function Refill(s: Sender, now: int): (r: Written)
    requires Valid(s)
    decreases s.lastSeqWritten - s.lastSeqSent
    ensures Valid(r.s) && !RefillGuard(r.s)
    ensures RefillGuard(s) ==> r.s.lastSeqSent == Min(s.lastSeqWritten, s.lastAckRecv + s.cwnd.Floor)
    ensures !RefillGuard(s) ==> r == Written(s, [])
    ensures |r.sent| == r.s.lastSeqSent - s.lastSeqSent
    ensures forall j | 0 <= j < |r.sent| :: r.sent[j].seqNum == s.lastSeqSent + 1 + j
    ensures forall j | 0 <= j < |r.sent| ::
      s.lastSeqSent < r.sent[j].seqNum <= s.lastSeqWritten &&
      r.sent[j] == s.buf[SlotOf(r.sent[j].seqNum)].value.packet
    ensures PacketsKept(s, r.s)
    ensures r.s.lastAckRecv == s.lastAckRecv && r.s.lastSeqWritten == s.lastSeqWritten
    ensures r.s.permits == s.permits && r.s.cwnd == s.cwnd
    ensures r.s.useSlowStart == s.useSlowStart && r.s.useFastRetransmit == s.useFastRetransmit
  {
    if RefillGuard(s) then
      var k := s.lastSeqSent + 1;
      var t := Transmit(s, k, now);
      var rest := Refill(t, now);
      PacketsKeptTrans(s, t, rest.s);
      Written(rest.s, [s.buf[SlotOf(k)].value.packet] + rest.sent)
    else Written(s, [])
  }

  /**
   * The ACK handling with the refill loop working: the ACK is applied and
   * then every buffered segment the grown window admits is transmitted in
   * increasing order.
   */
  function OnAckFixed(s: Sender, p: Packet, now: int): (r: Outcome)
    requires Valid(s)
    ensures p.seqNum <= s.lastAckRecv ==> r == Step(s, [], [])
    ensures r.Crash? <==> p.seqNum > s.lastSeqWritten
    ensures r.Step? ==> Valid(r.s)
    ensures r.Step? && s.lastAckRecv < p.seqNum ==>
      && !RefillGuard(r.s)
      && r.s.lastAckRecv == p.seqNum
      && r.s.permits == s.permits + (p.seqNum - s.lastAckRecv)
      && r.s.cwnd > s.cwnd
      && r.sampled == Samples(s, s.lastAckRecv, p.seqNum)
      && (forall j | 0 <= j < |r.sent| :: r.sent[j].seqNum == Max(s.lastSeqSent, p.seqNum) + 1 + j)
  {
    var a := p.seqNum;
    if a <= s.lastAckRecv then Step(s, [], [])
    else if a > s.lastSeqWritten then Crash(PastWritten(s), EmptySlot)
    else
      var t := Advance(s, a);
      var w := Refill(t, now);
      Step(w.s, w.sent, Samples(s, s.lastAckRecv, a))
  }

  /**
   * The correction touches nothing but the refill: wherever the handling as
   * written survives, or dies walking into an empty slot, the corrected one
   * does the same; where it dies of the NameError, the corrected one
   * instead transmits at least one buffered segment.
   */
  lemma OnAckAgrees(s: Sender, p: Packet, now: int)
    requires Valid(s)
    ensures var r := OnAck(s, p);
      !(r.Crash? && r.fault == RefillNameError) ==> OnAckFixed(s, p, now) == r
    ensures var r := OnAck(s, p);
      r.Crash? && r.fault == RefillNameError ==>
        OnAckFixed(s, p, now).Step? && |OnAckFixed(s, p, now).sent| > 0
  {
  }

  /** Clears the marker of every slot holding a segment numbered in (lo, hi]. */
  function ResetMarkers(buf: seq<Option<Entry>>, lo: int, hi: int): (r: seq<Option<Entry>>)
    ensures |r| == |buf|
  {
    seq(|buf|, i requires 0 <= i < |buf| =>
      if buf[i].Some? && lo < buf[i].value.packet.seqNum <= hi
      then Some(buf[i].value.(mark := Unsent)) else buf[i])
  }

  /**
   * `_timeout`: cwnd becomes `max(1, cwnd // 2)`, every transmitted but
   * unacknowledged segment gets the unsent marker back, and the oldest
   * unacknowledged segment is transmitted again (so it ends with a fresh
   * first-send timestamp). With nothing written beyond lastAckRecv the
   * transmission subscripts an empty slot.
   */
  function Timeout(s: Sender, now: int): (r: Outcome)
    requires Valid(s)
    ensures r.Crash? <==> s.lastAckRecv == s.lastSeqWritten
    ensures r.Crash? ==> r.fault == EmptySlot && r.at == s.(cwnd := HalveCwnd(s.cwnd))
    ensures r.Step? ==> Valid(r.s) && r.sampled == []
    ensures r.Step? ==> r.sent == [s.buf[SlotOf(s.lastAckRecv + 1)].value.packet]
    ensures r.Step? ==> r.sent[0].seqNum == s.lastAckRecv + 1
    ensures r.Step? ==> r.s.cwnd == HalveCwnd(s.cwnd)
    ensures r.Step? ==>
      r.s.buf[SlotOf(s.lastAckRecv + 1)].Some? && r.s.buf[SlotOf(s.lastAckRecv + 1)].value.mark == SentAt(now)
    ensures r.Step? ==> forall k | s.lastAckRecv + 1 < k <= s.lastSeqSent ::
      r.s.buf[SlotOf(k)].Some? && r.s.buf[SlotOf(k)].value.mark == Unsent
    ensures r.Step? ==> r.s.lastSeqSent == Max(s.lastSeqSent, s.lastAckRecv + 1) && r.s.timerArmed
    ensures r.Step? ==> r.s.lastAckRecv == s.lastAckRecv && r.s.lastSeqWritten == s.lastSeqWritten
    ensures r.Step? ==> r.s.permits == s.permits
    ensures r.Step? ==> PacketsKept(s, r.s)
    ensures r.Step? ==> r.s.useSlowStart == s.useSlowStart && r.s.useFastRetransmit == s.useFastRetransmit
  {
    var halved := s.(cwnd := HalveCwnd(s.cwnd));
    if s.lastAckRecv == s.lastSeqWritten then Crash(halved, EmptySlot)
    else
      var k := s.lastAckRecv + 1;
      var reset := ClearSendTimes(halved);
      var t := Transmit(reset, k, now);
      PacketsKeptTrans(halved, reset, t);
      assert forall j | k < j <= s.lastSeqSent :: t.buf[SlotOf(j)] == reset.buf[SlotOf(j)] by {
        forall j | k < j <= s.lastSeqSent ensures t.buf[SlotOf(j)] == reset.buf[SlotOf(j)] {
          SlotsDistinct(reset, j, k);
        }
      }
      Step(t, [s.buf[SlotOf(k)].value.packet], [])
  }

  /** The timeout's reset: every transmitted, unacknowledged segment gets the unsent marker back. */
  function ClearSendTimes(s: Sender): (r: Sender)
    requires Valid(s)
    ensures Valid(r)
    ensures PacketsKept(s, r)
    ensures forall j | s.lastAckRecv < j <= s.lastSeqSent :: r.buf[SlotOf(j)].value.mark == Unsent
    ensures r == s.(buf := r.buf)
  {
    var r := s.(buf := ResetMarkers(s.buf, s.lastAckRecv, s.lastSeqSent));
    assert WindowHeld(r);
    assert UnsentAbove(r);
    r
  }

  /**
   * The NameError is reached by the first acknowledgment of a session: with
   * cwnd 1 a chunk written after the SYN waits unsent, the ACK of the SYN
   * grows cwnd to 2.5, and the refill loop's guard then holds.
   */
  lemma RefillCrashesOnFirstAck(data: seq<byte>, now: int)
    ensures var s0 := Init(false, false, now).s;
      var w := SendChunk(s0, data, now);
      && w.Some? && w.value.sent == []
      && Advance(w.value.s, 0).cwnd == 2.5
      && OnAck(w.value.s, Packet(ACK, 0, [])) == Crash(Advance(w.value.s, 0), RefillNameError)
  {
  }

  /** The same first acknowledgment under the corrected refill transmits the waiting chunk. */
  lemma RefillFixedSendsOnFirstAck(data: seq<byte>, now: int)
    ensures var s0 := Init(false, false, now).s;
      var w := SendChunk(s0, data, now).value;
      var r := OnAckFixed(w.s, Packet(ACK, 0, []), now);
      r.Step? && r.sent == [Packet(DATA, 1, data)] && r.s.lastSeqSent == 1
  {
  }

  /** What can happen to a sender: an application write, an arriving packet, the timer firing. */
  datatype Event =
    | Write(data: seq<byte>, now: int)
    | Arrive(p: Packet, now: int)
    | Expire(now: int)

  /**
   * One event under the corrected refill. A write with no free permit
   * blocks and changes nothing; the timer fires only while it is scheduled.
   */
  function Next(s: Sender, e: Event): (r: Outcome)
    requires Valid(s)
    ensures r.Step? ==> Valid(r.s)
    ensures r.Crash? ==> e.Arrive? && e.p.seqNum > s.lastSeqWritten && r.fault == EmptySlot
    ensures r.Step? ==> r.s.lastAckRecv >= s.lastAckRecv && r.s.lastSeqWritten >= s.lastSeqWritten
  {
    match e
    case Write(data, now) =>
      (match SendChunk(s, data, now)
       case None => Step(s, [], [])
       case Some(w) => Step(w.s, w.sent, []))
    case Arrive(p, now) => OnAckFixed(s, p, now)
    case Expire(now) => if s.timerArmed then Timeout(s, now) else Step(s, [], [])
  }

  /** A run of events from a valid state: every state reached is valid until a crash. */
  function Run(s: Sender, events: seq<Event>): (r: Outcome)
    requires Valid(s)
    decreases |events|
    ensures r.Step? ==> Valid(r.s)
    ensures r.Step? ==> r.s.lastAckRecv >= s.lastAckRecv && r.s.lastSeqWritten >= s.lastSeqWritten
    ensures r.Crash? ==> r.fault == EmptySlot
  {
    if |events| == 0 then Step(s, [], [])
    else
      match Next(s, events[0])
      case Crash(at, fault) => Crash(at, fault)
      case Step(t, sent, sampled) =>
        match Run(t, events[1..])
        case Crash(at, fault) => Crash(at, fault)
        case Step(u, sent', sampled') => Step(u, sent + sent', sampled + sampled')
  }

  /** The sender's invariant in every reachable state: cwnd at least 1, permits conserved. */
  lemma SessionValid(useSlowStart: bool, useFastRetransmit: bool, now: int, events: seq<Event>)
    ensures var r := Run(Init(useSlowStart, useFastRetransmit, now).s, events);
      r.Step? ==>
        && r.s.cwnd >= 1.0
        && r.s.permits + (r.s.lastSeqWritten - r.s.lastAckRecv) == BUF_SIZE
        && r.s.lastAckRecv <= r.s.lastSeqSent <= r.s.lastSeqWritten
  {
  }

  /** A sender that has seen no ACK yet: only the SYN has been transmitted, under a window of one. */
  predicate PreAck(s: Sender)
  {
    s.lastAckRecv == -1 && s.lastSeqSent == 0 && s.cwnd == 1.0
  }

  /** The constructor leaves the sender waiting for its first ACK. */
  lemma InitPreAck(useSlowStart: bool, useFastRetransmit: bool, now: int)
    ensures var w := Init(useSlowStart, useFastRetransmit, now);
      PreAck(w.s) && w.sent == [Packet(SYN, 0, [])]
  {
  }

  /**
   * Until an ACK arrives, neither a write nor the timer puts anything but
   * packet 0 on the wire: the window of one admits no DATA, and a timeout
   * keeps cwnd at 1 and retransmits the SYN. So a receiver paired with this
   * sender sees packet 0 before any other.
   */
  lemma NoDataBeforeFirstAck(s: Sender, e: Event)
    requires Valid(s) && PreAck(s) && !e.Arrive?
    ensures var r := Next(s, e);
      && r.Step? && PreAck(r.s)
      && forall i | 0 <= i < |r.sent| :: r.sent[i].seqNum == 0
  {
  }
}

=== FILE: codec.dfy ===
/**
 * The congestion-controlled engine's wire format (`Packet` in
 * Lab5-part2/congestion_control.py): a type tag `D`, `A` or `S`, a
 * big-endian 32-bit sequence number, then the payload.
 */
module Codec {

  import opened Wrappers
  import opened Wire

  datatype PacketType = DATA | ACK | SYN

  /** The enum value of each type: the ASCII code of its letter. */
  function Tag(t: PacketType): byte
  {
    match t
    case DATA => 0x44
    case ACK => 0x41
    case SYN => 0x53
  }

  /** `PacketType(b)`: raises for any byte that is not one of the three tags. */
  function TypeOfTag(b: byte): (r: Option<PacketType>)
    ensures r.Some? ==> Tag(r.value) == b
    ensures (exists t :: Tag(t) == b) ==> r.Some?
  {
    if b == 0x44 then Some(DATA)
    else if b == 0x41 then Some(ACK)
    else if b == 0x53 then Some(SYN)
    else None
  }

  /** A packet as the engine holds it; the sequence number is a Python int. */
  datatype Packet = Packet(ptype: PacketType, seqNum: int, data: seq<byte>)

  datatype CodecError =
    | SeqOutOfRange   // packing raises for a number outside 0 .. 2^32-1
    | ShortHeader     // unpacking raises on fewer than 5 header bytes
    | UnknownType     // PacketType(...) raises on an unknown tag

  /** `Packet.to_bytes`. */
  function Encode(p: Packet): (r: Result<seq<byte>, CodecError>)
    ensures r.Success? <==> IsU32(p.seqNum)
    ensures r.Success? ==> |r.value| == HEADER_SIZE + |p.data|
    ensures r.Success? ==> r.value[0] == Tag(p.ptype)
    ensures r.Success? ==> FromBigEndian32(r.value[1..HEADER_SIZE]) == p.seqNum
    ensures r.Success? ==> r.value[HEADER_SIZE..] == p.data
  {
    if !IsU32(p.seqNum) then Failure(SeqOutOfRange)
    else
      var h := Header(Tag(p.ptype), p.seqNum);
      assert (h + p.data)[1..HEADER_SIZE] == h[1..HEADER_SIZE];
      Success(h + p.data)
  }

  /** `Packet.from_bytes`: every byte after the header is payload. */
  function Decode(raw: seq<byte>): (r: Result<Packet, CodecError>)
    ensures r.Success? <==> |raw| >= HEADER_SIZE && TypeOfTag(raw[0]).Some?
    ensures |raw| < HEADER_SIZE ==> r == Failure(ShortHeader)
    ensures |raw| >= HEADER_SIZE && TypeOfTag(raw[0]).None? ==> r == Failure(UnknownType)
    ensures r.Success? ==> IsU32(r.value.seqNum) && r.value.data == raw[HEADER_SIZE..]
  {
    match ParseHeader(raw)
    case None => Failure(ShortHeader)
    case Some((tag, seqNum)) =>
      match TypeOfTag(tag)
      case None => Failure(UnknownType)
      case Some(t) => Success(Packet(t, seqNum, raw[HEADER_SIZE..]))
  }

  /** Decoding an encoded packet gives back the same type, number and payload. */
  lemma DecodeEncode(p: Packet)
    requires IsU32(p.seqNum)
    ensures Encode(p).Success? && Decode(Encode(p).value) == Success(p)
  {
  }

  /** Every byte string that decodes is the encoding of what it decodes to. */
  lemma EncodeDecode(raw: seq<byte>)
    requires Decode(raw).Success?
    ensures Encode(Decode(raw).value) == Success(raw)
  {
    var p := Decode(raw).value;
    var h := ParseHeader(raw).value;
    assert raw == raw[..HEADER_SIZE] + raw[HEADER_SIZE..];
    assert Encode(p).value == Header(h.0, h.1) + p.data;
  }
}

=== FILE: segmentation.dfy ===
/**
 * How both senders cut application data into packet payloads:
 * consecutive slices of MAX_DATA_SIZE bytes, the last one possibly shorter.
 */
module Segmentation {

  import opened Wrappers
  import opened Wire

  /** The payloads, in order, that `send(data)` hands to `_send`. */
  function Chunks(data: seq<byte>): (cs: seq<seq<byte>>)
    decreases |data|
  {
    if |data| == 0 then []
    else
      var n := Min(MAX_DATA_SIZE, |data|);
      [data[..n]] + Chunks(data[n..])
  }

  function Flatten(cs: seq<seq<byte>>): seq<byte>
  {
    if |cs| == 0 then [] else cs[0] + Flatten(cs[1..])
  }

  /** Concatenating the chunks gives back the data. */
  lemma {:induction false} ChunksFlatten(data: seq<byte>)
    ensures Flatten(Chunks(data)) == data
    decreases |data|
  {
    if |data| > 0 {
      var n := Min(MAX_DATA_SIZE, |data|);
      ChunksFlatten(data[n..]);
      assert Chunks(data)[1..] == Chunks(data[n..]);
      assert data == data[..n] + data[n..];
    }
  }

  /** There are ceil(|data| / 1400) chunks. */
  lemma {:induction false} ChunksCount(data: seq<byte>)
    ensures |Chunks(data)| == (|data| + MAX_DATA_SIZE - 1) / MAX_DATA_SIZE
    decreases |data|
  {
    if |data| > 0 {
      var n := Min(MAX_DATA_SIZE, |data|);
      ChunksCount(data[n..]);
      if n == MAX_DATA_SIZE {
        DivModUnique(1, (|data| - 1) % MAX_DATA_SIZE, MAX_DATA_SIZE);
        assert (|data| + MAX_DATA_SIZE - 1) / MAX_DATA_SIZE == 1 + (|data| - 1) / MAX_DATA_SIZE;
      }
    }
  }

  /** Chunk j is exactly the Python slice `data[j*1400 : j*1400+1400]`. */
  lemma {:induction false} ChunksAreSlices(data: seq<byte>)
    ensures forall j | 0 <= j < |Chunks(data)| ::
      j * MAX_DATA_SIZE < |data| &&
      Chunks(data)[j] == data[j * MAX_DATA_SIZE .. Min(j * MAX_DATA_SIZE + MAX_DATA_SIZE, |data|)]
    decreases |data|
  {
    if |data| > 0 {
      var n := Min(MAX_DATA_SIZE, |data|);
      var rest := data[n..];
      ChunksAreSlices(rest);
      var cs := Chunks(data);
      assert cs[1..] == Chunks(rest);
      forall j | 0 <= j < |cs|
        ensures j * MAX_DATA_SIZE < |data|
        ensures cs[j] == data[j * MAX_DATA_SIZE .. Min(j * MAX_DATA_SIZE + MAX_DATA_SIZE, |data|)]
      {
        if j > 0 {
          assert cs[j] == Chunks(rest)[j - 1];
          var lo := (j - 1) * MAX_DATA_SIZE;
          var hi := Min(lo + MAX_DATA_SIZE, |rest|);
          assert Chunks(rest)[j - 1] == rest[lo..hi];
          assert n == MAX_DATA_SIZE;
          assert lo < hi <= |rest|;
          assert forall i | 0 <= i < hi - lo :: rest[lo..hi][i] == data[n + lo .. n + hi][i];
          assert rest[lo..hi] == data[n + lo .. n + hi];
        }
      }
    }
  }

  /** Every chunk is non-empty and at most 1400 bytes long. */
  lemma ChunksBounded(data: seq<byte>)
    ensures forall j | 0 <= j < |Chunks(data)| :: 0 < |Chunks(data)[j]| <= MAX_DATA_SIZE
  {
  }

  /** Splitting a list of chunks anywhere splits their concatenation there. */
  lemma {:induction false} FlattenSplit(cs: seq<seq<byte>>, n: nat)
    requires n <= |cs|
    ensures Flatten(cs[..n]) + Flatten(cs[n..]) == Flatten(cs)
    decreases n
  {
    if n > 0 {
      FlattenSplit(cs[1..], n - 1);
      assert cs[..n][1..] == cs[1..][..n - 1];
      assert cs[n..] == cs[1..][n - 1..];
    }
  }
}

=== FILE: swp_codec.dfy ===
/**
 * The fixed-window engine's wire format (`SWPPacket` in
 * Lab5-part1/fc/swp.py): the same '!BI' header as the congestion-controlled
 * engine, but only the `D` and `A` tags exist.
 */
module SwpCodec {

  import opened Wrappers
  import opened Wire
  import Codec

  datatype SwpType = DATA | ACK

  function Tag(t: SwpType): byte
  {
    match t
    case DATA => 0x44
    case ACK => 0x41
  }

  /** `SWPType(b)`: raises for anything but `D` and `A`. */
  function TypeOfTag(b: byte): (r: Option<SwpType>)
    ensures r.Some? ==> Tag(r.value) == b
    ensures (exists t :: Tag(t) == b) ==> r.Some?
  {
    if b == 0x44 then Some(DATA)
    else if b == 0x41 then Some(ACK)
    else None
  }

  datatype SwpPacket = SwpPacket(ptype: SwpType, seqNum: int, data: seq<byte>)

  datatype SwpError = SeqOutOfRange | ShortHeader | UnknownType

  /** `SWPPacket.to_bytes`. */
  function Encode(p: SwpPacket): (r: Result<seq<byte>, SwpError>)
    ensures r.Success? <==> IsU32(p.seqNum)
    ensures r.Success? ==> |r.value| == HEADER_SIZE + |p.data|
    ensures r.Success? ==> r.value[0] == Tag(p.ptype)
    ensures r.Success? ==> FromBigEndian32(r.value[1..HEADER_SIZE]) == p.seqNum
    ensures r.Success? ==> r.value[HEADER_SIZE..] == p.data
  {
    if !IsU32(p.seqNum) then Failure(SeqOutOfRange)
    else
      var h := Header(Tag(p.ptype), p.seqNum);
      assert (h + p.data)[1..HEADER_SIZE] == h[1..HEADER_SIZE];
      Success(h + p.data)
  }

  /** `SWPPacket.from_bytes`. */
  function Decode(raw: seq<byte>): (r: Result<SwpPacket, SwpError>)
    ensures r.Success? <==> |raw| >= HEADER_SIZE && TypeOfTag(raw[0]).Some?
    ensures |raw| < HEADER_SIZE ==> r == Failure(ShortHeader)
    ensures |raw| >= HEADER_SIZE && TypeOfTag(raw[0]).None? ==> r == Failure(UnknownType)
    ensures r.Success? ==> IsU32(r.value.seqNum) && r.value.data == raw[HEADER_SIZE..]
  {
    match ParseHeader(raw)
    case None => Failure(ShortHeader)
    case Some((tag, seqNum)) =>
      match TypeOfTag(tag)
      case None => Failure(UnknownType)
      case Some(t) => Success(SwpPacket(t, seqNum, raw[HEADER_SIZE..]))
  }

  lemma DecodeEncode(p: SwpPacket)
    requires IsU32(p.seqNum)
    ensures Encode(p).Success? && Decode(Encode(p).value) == Success(p)
  {
  }

  lemma EncodeDecode(raw: seq<byte>)
    requires Decode(raw).Success?
    ensures Encode(Decode(raw).value) == Success(raw)
  {
    var p := Decode(raw).value;
    var h := ParseHeader(raw).value;
    assert raw == raw[..HEADER_SIZE] + raw[HEADER_SIZE..];
    assert Encode(p).value == Header(h.0, h.1) + p.data;
  }

  /**
   * A SYN of the congestion-controlled format is not a packet here: the
   * bytes the other codec accepts as a SYN make this decoder fail.
   */
  lemma SynRejected(n: int, data: seq<byte>)
    requires IsU32(n)
    ensures Codec.Decode(Codec.Encode(Codec.Packet(Codec.SYN, n, data)).value).Success?
    ensures Decode(Codec.Encode(Codec.Packet(Codec.SYN, n, data)).value) == Failure(UnknownType)
  {
  }

  /** The congestion-controlled engine's name for each type. */
  function AsCc(t: SwpType): Codec.PacketType
  {
    match t
    case DATA => Codec.DATA
    case ACK => Codec.ACK
  }

  /**
   * For `D` and `A` the two formats are the same bytes: both engines encode
   * a packet identically, and a byte string one of them decodes the other
   * decodes to the same packet.
   */
  lemma SameBytesAsCc(p: SwpPacket, raw: seq<byte>)
    ensures var q := Codec.Packet(AsCc(p.ptype), p.seqNum, p.data);
      Encode(p).Success? == Codec.Encode(q).Success?
      && (Encode(p).Success? ==> Encode(p).value == Codec.Encode(q).value)
    ensures Decode(raw).Success? ==>
      var d := Decode(raw).value;
      Codec.Decode(raw) == Success(Codec.Packet(AsCc(d.ptype), d.seqNum, d.data))
  {
    assert Tag(p.ptype) == Codec.Tag(AsCc(p.ptype));
  }
}

=== FILE: swp_receiver.dfy ===
/**
 * The go-back-N receiver (`SWPReceiver` in Lab5-part1/fc/swp.py): only the
 * packet numbered `expected` is delivered; later ones are dropped silently
 * and earlier ones are acknowledged again.
 */
module SwpReceiver {

  import opened Wrappers
  import opened Wire
  import opened SwpCodec

  datatype Receiver = Receiver(expected: int)

  /** The effect of one packet: the new state, what was delivered, the ACK sent if any. */
  datatype Reply = Reply(r: Receiver, delivered: seq<seq<byte>>, ack: Option<SwpPacket>)

  function Init(): Receiver { Receiver(0) }

  /**
   * The packet-handling body of `_recv`: the expected number advances by
   * one exactly when the DATA packet it names arrives, and that packet's
   * payload is then the only one delivered; an ACK echoes the number of a
   * DATA packet already delivered, and a later packet is dropped unanswered.
   */
  function OnPacket(r: Receiver, p: SwpPacket): (y: Reply)
    ensures r.expected <= y.r.expected <= r.expected + 1
    ensures y.r.expected == r.expected + 1 <==> p.ptype == DATA && p.seqNum == r.expected
    ensures y.delivered == (if y.r.expected == r.expected + 1 then [p.data] else [])
    ensures y.ack.Some? <==> p.ptype == DATA && p.seqNum <= r.expected
    ensures y.ack.Some? ==> y.ack.value == SwpPacket(ACK, p.seqNum, []) && p.seqNum < y.r.expected
  {
    if p.ptype != DATA then Reply(r, [], None)
    else if p.seqNum == r.expected then
      Reply(Receiver(r.expected + 1), [p.data], Some(SwpPacket(ACK, p.seqNum, [])))
    else if p.seqNum > r.expected then Reply(r, [], None)
    else Reply(r, [], Some(SwpPacket(ACK, p.seqNum, [])))
  }

  /** What a receiver has done after a sequence of packets. */
  datatype Session = Session(r: Receiver, delivered: seq<seq<byte>>, acks: seq<SwpPacket>)

  function Run(r: Receiver, ps: seq<SwpPacket>): (y: Session)
    decreases |ps|
  {
    if |ps| == 0 then Session(r, [], [])
    else
      var step := OnPacket(r, ps[0]);
      var rest := Run(step.r, ps[1..]);
      var acks := if step.ack.Some? then [step.ack.value] else [];
      Session(rest.r, step.delivered + rest.delivered, acks + rest.acks)
  }

  /** Every DATA packet carries the payload of its own number. */
  ghost predicate Honest(ps: seq<SwpPacket>, payload: int -> seq<byte>)
  {
    forall i | 0 <= i < |ps| :: ps[i].ptype == DATA ==> ps[i].data == payload(ps[i].seqNum)
  }

  /**
   * Whatever arrives, the receiver delivers the payloads numbered from its
   * starting point up to (not including) its final expected number, each
   * once and in order; every ACK it sends is for a number it has already
   * delivered or skipped past.
   */
  lemma {:induction false} RunInOrder(r: Receiver, ps: seq<SwpPacket>, payload: int -> seq<byte>)
    requires Honest(ps, payload)
    decreases |ps|
    ensures var y := Run(r, ps);
      && y.r.expected >= r.expected
      && |y.delivered| == y.r.expected - r.expected
      && (forall j | 0 <= j < |y.delivered| :: y.delivered[j] == payload(r.expected + j))
      && (forall i | 0 <= i < |y.acks| :: y.acks[i].ptype == ACK && y.acks[i].seqNum < y.r.expected)
  {
    if |ps| > 0 {
      var step := OnPacket(r, ps[0]);
      assert Honest(ps[1..], payload) by {
        forall i | 0 <= i < |ps[1..]| && ps[1..][i].ptype == DATA
          ensures ps[1..][i].data == payload(ps[1..][i].seqNum)
        {
          assert ps[1..][i] == ps[i + 1];
        }
      }
      RunInOrder(step.r, ps[1..], payload);
      var rest := Run(step.r, ps[1..]);
      var y := Run(r, ps);
      var acks := if step.ack.Some? then [step.ack.value] else [];
      assert y.delivered == step.delivered + rest.delivered;
      assert y.acks == acks + rest.acks;
      forall j | 0 <= j < |y.delivered|
        ensures y.delivered[j] == payload(r.expected + j)
      {
        if j >= |step.delivered| {
          assert y.delivered[j] == rest.delivered[j - |step.delivered|];
        }
      }
      forall i | 0 <= i < |y.acks|
        ensures y.acks[i].ptype == ACK && y.acks[i].seqNum < y.r.expected
      {
        if i >= |acks| {
          assert y.acks[i] == rest.acks[i - |acks|];
        }
      }
    }
  }

  /** From a fresh receiver the delivered payloads are exactly those of 0 .. expected-1. */
  lemma DeliversPrefix(ps: seq<SwpPacket>, payload: int -> seq<byte>)
    requires Honest(ps, payload)
    ensures var y := Run(Init(), ps);
      y.r.expected >= 0 && y.delivered == seq(y.r.expected, i => payload(i))
  {
    RunInOrder(Init(), ps, payload);
  }
}

=== FILE: swp_sender.dfy ===
/**
 * The fixed-window sender (`SWPSender` in Lab5-part1/fc/swp.py): sequence
 * numbers are handed out from 0 in order, and the outstanding ones are the
 * keys of a dictionary of retransmission timers. Timers are abstracted away,
 * so the dictionary is the set of its keys. The `_ack_received` event is a
 * flag: once set it is never cleared.
 */
module SwpSender {

  import opened Wrappers
  import opened Wire
  import opened Segmentation
  import opened SwpCodec

  const SEND_WINDOW_SIZE: int := 5

  datatype Sender = Sender(nextSeq: int, window: set<int>, ackSeen: bool)

  function Init(): (s: Sender)
    ensures Valid(s) && s.nextSeq == 0 && s.window == {} && !s.ackSeen
  {
    Sender(0, {}, false)
  }

  /** Every outstanding number was handed out earlier. */
  ghost predicate Valid(s: Sender)
  {
    s.nextSeq >= 0 && forall k | k in s.window :: 0 <= k < s.nextSeq
  }

  /**
   * `_send(data)`. With five or more entries outstanding and no ACK ever
   * seen, the writer's wait for a free window place never returns (the ACK that would set the event is
   * handled under the lock the writer holds), so the write is stuck: None.
   * Otherwise the chunk goes out as DATA under the next number, which joins
   * the outstanding set.
   */
  function SendChunk(s: Sender, data: seq<byte>): (r: Option<(Sender, SwpPacket)>)
    requires Valid(s)
    ensures r.None? <==> |s.window| >= SEND_WINDOW_SIZE && !s.ackSeen
    ensures r.Some? ==> Valid(r.value.0)
    ensures r.Some? ==> r.value.1 == SwpPacket(DATA, s.nextSeq, data)
    ensures r.Some? ==> r.value.0.nextSeq == s.nextSeq + 1
    ensures r.Some? ==> r.value.0.window == s.window + {s.nextSeq} && s.nextSeq !in s.window
    ensures r.Some? ==> r.value.0.ackSeen == s.ackSeen
  {
    if |s.window| >= SEND_WINDOW_SIZE && !s.ackSeen then None
    else
      Some((Sender(s.nextSeq + 1, s.window + {s.nextSeq}, s.ackSeen), SwpPacket(DATA, s.nextSeq, data)))
  }

  /** The packets `send(data)` puts on the link, and the chunks a stuck write never sent. */
  datatype SendOutcome = SendOutcome(s: Sender, sent: seq<SwpPacket>, pending: seq<seq<byte>>)

  function WriteChunks(s: Sender, chunks: seq<seq<byte>>): (r: SendOutcome)
    requires Valid(s)
    decreases |chunks|
    ensures Valid(r.s)
    ensures |r.sent| + |r.pending| == |chunks|
    ensures r.s.nextSeq == s.nextSeq + |r.sent|
    ensures forall j | 0 <= j < |r.sent| :: r.sent[j] == SwpPacket(DATA, s.nextSeq + j, chunks[j])
    ensures r.pending == chunks[|r.sent|..]
    ensures r.pending != [] ==> |r.s.window| >= SEND_WINDOW_SIZE && !r.s.ackSeen
  {
    if |chunks| == 0 then SendOutcome(s, [], [])
    else
      match SendChunk(s, chunks[0])
      case None => SendOutcome(s, [], chunks)
      case Some((t, p)) =>
        var rest := WriteChunks(t, chunks[1..]);
        var r := SendOutcome(rest.s, [p] + rest.sent, rest.pending);
        assert forall j | 1 <= j < |r.sent| :: r.sent[j] == rest.sent[j - 1];
        r
  }

  /**
   * `send(data)`: the chunks of data under consecutive numbers from
   * nextSeq; the payloads of the packets sent, followed by the chunks still
   * pending, are the data.
   */
  function Send(s: Sender, data: seq<byte>): (r: SendOutcome)
    requires Valid(s)
    ensures Valid(r.s)
    ensures r.s.nextSeq == s.nextSeq + |r.sent|
    ensures forall j | 0 <= j < |r.sent| ::
      r.sent[j].ptype == DATA && r.sent[j].seqNum == s.nextSeq + j && 0 < |r.sent[j].data| <= MAX_DATA_SIZE
    ensures Flatten(Payloads(r.sent)) + Flatten(r.pending) == data
  {
    var cs := Chunks(data);
    var r := WriteChunks(s, cs);
    ChunksBounded(data);
    ChunksFlatten(data);
    assert Payloads(r.sent) == cs[..|r.sent|];
    FlattenSplit(cs, |r.sent|);
    r
  }

  function Payloads(ps: seq<SwpPacket>): (ds: seq<seq<byte>>)
    ensures |ds| == |ps| && forall j | 0 <= j < |ps| :: ds[j] == ps[j].data
  {
    seq(|ps|, j requires 0 <= j < |ps| => ps[j].data)
  }

  /**
   * The ACK branch of `_recv`: an ACK for an outstanding number removes
   * exactly that number and sets the event; an ACK for any other number,
   * and any packet that is not an ACK, changes nothing.
   */
  function OnPacket(s: Sender, p: SwpPacket): (r: Sender)
    requires Valid(s)
    ensures Valid(r)
    ensures p.ptype == ACK && p.seqNum in s.window ==>
      r.window == s.window - {p.seqNum} && p.seqNum !in r.window && r.ackSeen && r.nextSeq == s.nextSeq
    ensures !(p.ptype == ACK && p.seqNum in s.window) ==> r == s
  {
    if p.ptype == ACK && p.seqNum in s.window then
      s.(window := s.window - {p.seqNum}, ackSeen := true)
    else s
  }

  /**
   * The five-entry limit is not a bound: once one ACK has been seen, no
   * write ever waits, and every chunk written adds an outstanding number.
   */
  lemma {:induction false} WindowNotBounded(s: Sender, chunks: seq<seq<byte>>)
    requires Valid(s) && s.ackSeen
    decreases |chunks|
    ensures var r := WriteChunks(s, chunks);
      r.pending == [] && r.s.ackSeen && |r.s.window| == |s.window| + |chunks|
  {
    if |chunks| > 0 {
      var t := SendChunk(s, chunks[0]).value.0;
      WindowNotBounded(t, chunks[1..]);
    }
  }

  /** After the first ACK, six writes leave six numbers outstanding. */
  lemma SixOutstanding(a: seq<byte>)
    ensures var s1 := SendChunk(Init(), a).value.0;
      var s2 := OnPacket(s1, SwpPacket(ACK, 0, []));
      var r := WriteChunks(s2, [a, a, a, a, a, a]);
      r.pending == [] && |r.s.window| == 6 > SEND_WINDOW_SIZE
  {
    var s1 := SendChunk(Init(), a).value.0;
    var s2 := OnPacket(s1, SwpPacket(ACK, 0, []));
    assert s2.window == {};
    WindowNotBounded(s2, [a, a, a, a, a, a]);
  }
}

=== FILE: wire.dfy ===
/**
 * The 5-byte header shared by both packet formats: struct format `'!BI'`,
 * one unsigned byte (the type tag) followed by a big-endian unsigned 32-bit
 * sequence number.
 */
module Wire {

  import opened Wrappers

  type byte = x: int | 0 <= x < 256

  const HEADER_SIZE: int := 5
  const MAX_DATA_SIZE: int := 1400
  const TWO_32: int := 0x1_0000_0000

  /** What struct's `I` code accepts: an unsigned 32-bit integer. */
  predicate IsU32(n: int) { 0 <= n < TWO_32 }

  /** Most significant byte first. */
  function BigEndian32(n: int): (b: seq<byte>)
    requires IsU32(n)
    ensures |b| == 4
  {
    [n / 0x100_0000, (n / 0x1_0000) % 0x100, (n / 0x100) % 0x100, n % 0x100]
  }

  function FromBigEndian32(b: seq<byte>): (n: int)
    requires |b| == 4
    ensures IsU32(n)
  {
    (b[0] as int) * 0x100_0000 + (b[1] as int) * 0x1_0000 + (b[2] as int) * 0x100 + (b[3] as int)
  }

  /** Euclidean division by a positive divisor recovers quotient and remainder. */
  lemma DivModUnique(q: int, r: int, d: int)
    requires d > 0 && 0 <= r < d
    ensures (q * d + r) / d == q && (q * d + r) % d == r
  {
    var n := q * d + r;
    var q', r' := n / d, n % d;
    assert n == q' * d + r' && 0 <= r' < d;
    assert (q - q') * d == r' - r;
    if q' < q {
      assert (q - q') * d >= d by { MulAtLeast(q - q', d); }
    } else if q < q' {
      assert (q' - q) * d >= d by { MulAtLeast(q' - q, d); }
    }
  }

  /** Two numbers less than d apart, and not equal, have different residues modulo d. */
  lemma ModDistinct(a: int, b: int, d: int)
    requires d > 0 && a < b < a + d
    ensures a % d != b % d
  {
    var qa, qb := a / d, b / d;
    assert a == qa * d + a % d && b == qb * d + b % d;
    if a % d == b % d {
      assert (qb - qa) * d == b - a;
      if qb - qa >= 1 {
        MulAtLeast(qb - qa, d);
      } else {
        assert (qa - qb) * d >= 0 by { MulNonNeg(qa - qb, d); }
      }
    }
  }

  lemma MulNonNeg(k: int, d: int)
    requires k >= 0 && d > 0
    ensures k * d >= 0
  {
  }

  lemma MulAtLeast(k: int, d: int)
    requires k >= 1 && d > 0
    ensures k * d >= d
  {
  }

  lemma FromToBigEndian32(n: int)
    requires IsU32(n)
    ensures FromBigEndian32(BigEndian32(n)) == n
  {
    var m1, b3 := n / 0x100, n % 0x100;
    var m2, b2 := m1 / 0x100, m1 % 0x100;
    var m3, b1 := m2 / 0x100, m2 % 0x100;
    assert n == m2 * 0x1_0000 + (b2 * 0x100 + b3);
    DivModUnique(m2, b2 * 0x100 + b3, 0x1_0000);
    assert n == m3 * 0x100_0000 + (b1 * 0x1_0000 + b2 * 0x100 + b3);
    DivModUnique(m3, b1 * 0x1_0000 + b2 * 0x100 + b3, 0x100_0000);
  }

  lemma ToFromBigEndian32(b: seq<byte>)
    requires |b| == 4
    ensures BigEndian32(FromBigEndian32(b)) == b
  {
    var b0, b1, b2, b3 := b[0] as int, b[1] as int, b[2] as int, b[3] as int;
    var n := FromBigEndian32(b);
    DivModUnique(b0, b1 * 0x1_0000 + b2 * 0x100 + b3, 0x100_0000);
    DivModUnique(b0 * 0x100 + b1, b2 * 0x100 + b3, 0x1_0000);
    DivModUnique(b0, b1, 0x100);
    DivModUnique(b0 * 0x1_0000 + b1 * 0x100 + b2, b3, 0x100);
    DivModUnique(b0 * 0x100 + b1, b2, 0x100);
  }

  /** The five-byte header: the tag byte, then the number as a big-endian unsigned 32-bit word. */
  function Header(tag: byte, seqNum: int): (h: seq<byte>)
    requires IsU32(seqNum)
    ensures |h| == HEADER_SIZE
    ensures h[0] == tag
    ensures FromBigEndian32(h[1..HEADER_SIZE]) == seqNum
  {
    FromToBigEndian32(seqNum);
    [tag] + BigEndian32(seqNum)
  }

  /** Reading the five-byte header back: fails when fewer than five bytes are present. */
  function ParseHeader(raw: seq<byte>): (r: Option<(byte, int)>)
    ensures r.Some? <==> |raw| >= HEADER_SIZE
    ensures r.Some? ==> IsU32(r.value.1) && Header(r.value.0, r.value.1) == raw[..HEADER_SIZE]
  {
    if |raw| < HEADER_SIZE then None
    else
      ToFromBigEndian32(raw[1..HEADER_SIZE]);
      Some((raw[0], FromBigEndian32(raw[1..HEADER_SIZE])))
  }
}

=== FILE: wrappers.dfy ===
/** Failure-carrying values shared by the codecs and the engines. */
module Wrappers {

  /** A value that may be absent (Python's `None`). */
  datatype Option<+T> = None | Some(value: T)

  /** Either a value or the error that a decoding or encoding step raised. */
  datatype Result<+T, +E> = Success(value: T) | Failure(error: E)

  function Max(a: int, b: int): int { if a < b then b else a }

  function Min(a: int, b: int): int { if a < b then a else b }
}
